=== FILE: README.md ===
# Booking dashboard core in Dafny

This project models the aggregation library of a holiday-rental dashboard, `src/utils/dataUtils.js`. It reads a spreadsheet feed, one list of rows per property (gîte). The rows that are bookings become entries. The library then selects the bookings of a period (a year, or one month of a year) by their start date, leaving out home exchanges. From that selection it computes:

- the header totals over all properties;
- the card of one property: bookings, nights, revenue, the two means, the revenue per payment tag, and the guest-nights per payment group;
- the occupation gauges;
- the list of years that occur;
- the two URSSAF declarations (the social-contribution filings of the two owners).

The model is split into modules that follow the library's layers:

| module | file | models |
|---|---|---|
| `JsStrings` | `js_strings.dfy` | `trim`, `toLowerCase`, `includes`, digit strings |
| `JsValues` | `js_values.dfy` | the JSON cell values of the feed, truthiness, `toString`, `Number()` on decimal text |
| `Calendar` | `calendar.dfy` | the leap rule, month lengths, the rollover of `new Date(y, m, d)` |
| `Seqs` | `seqs.dfy` | filters, subsequences, sums, and sums per key over sequences |
| `Records` | `records.dfy` | `safeNum`, `parseDate`, `parseGitesData` |
| `Periods` | `periods.dfy` | `isHomeExchange`, `entryMatch`, `filterDataByPeriod`, `getAvailableYears` |
| `Stats` | `stats.dfy` | `computeGlobalStats`, `computeGiteStats` |
| `Occupation` | `occupation.dfy` | `computeOccupation`, `getOccupationPerYear` |
| `Urssaf` | `urssaf.dfy` | `computeUrssaf` |

The parts of the library that update state step by step are methods with loops:

- `ParseGitesData` fills the result per key.
- `GetAvailableYears` fills a set and sorts it.
- `ComputeGlobalStats` keeps three accumulators.
- `ComputeGiteStats` fills the payments map and the guest-night buckets.
- `ComputeUrssaf` keeps two accumulators.

Each method's `ensures` ties its result to a specification function, and lemmas prove what those functions promise. The pure parts are functions.

Modelling choices:

- **Numbers** are exact reals. A number cell of the feed is an exact decimal.
- **Month:** a falsy `month` (0, `""`, `null`, `undefined`) is the integer 0.
- **Dates** are `(year, month, day)` triples in local time.
- **The current date,** which `computeOccupation` reads from the clock, is the parameter `today`.
- **The dataset** is a `map` from property name to bookings. No result depends on the order of its keys.

## Model

| member | source | states |
|---|---|---|
| JsStrings.Trim | src/utils/dataUtils.js:19 | the trimmed text is no longer than the input, and starts and ends with a non-blank |
| JsStrings.TrimInfix | src/utils/dataUtils.js:19 | the trimmed text is a slice of the input, only blanks lie before and after that slice, and so every character of it occurs in the input |
| JsStrings.TrimIdempotent | src/utils/dataUtils.js:19 | trimming twice is trimming once, so the stored payment text is already trimmed |
| JsStrings.TrimEmpty | src/utils/dataUtils.js:103 | a text trims to empty exactly when it is all white space (the blank-label test of the payment tag) |
| JsStrings.ToLowerCase | src/utils/dataUtils.js:28 | lower-casing keeps the length, leaves no capital, turns each capital into the small letter 32 code points on, and leaves every other character where it was |
| JsStrings.ToLowerCaseHomeExchange | src/utils/dataUtils.js:28 | the tag "HomeExchange" lower-cases to "homeexchange", the text the home-exchange test compares with |
| JsStrings.ToLowerCaseIdempotent | src/utils/dataUtils.js:28 | lower-casing twice is lower-casing once |
| JsStrings.ContainsAt | src/utils/dataUtils.js:112-118 | `includes` holds exactly when the pattern occurs at some position |
| JsStrings.NotContainsMissingChar | src/utils/dataUtils.js:112-118 | a text lacking one character of a pattern does not include the pattern |
| JsValues.NumTextRoundTrip | src/utils/dataUtils.js:42 | `Number()` of a number's text gives the number back |
| JsValues.UnsignedDecimal | src/utils/dataUtils.js:42 | an unsigned decimal literal never reads as a negative number |
| JsValues.StringToNumber | src/utils/dataUtils.js:42 | `Number()` of an empty or all-blank text is 0 |
| JsValues.TwoPointsNaN | src/utils/dataUtils.js:42 | `Number()` of a text with two points and no blank at its ends is NaN |
| JsValues.InnerMinusNaN | src/utils/dataUtils.js:42 | `Number()` of a text with a minus sign after its first character and no blank at its ends is NaN |
| JsValues.NegativeNeedsMinus | src/utils/dataUtils.js:42 | a text that `Number()` reads as negative holds a minus sign |
| Calendar.IsLeapYear | src/utils/dataUtils.js:165-167 | a year is leap exactly when it is a multiple of 4 and not of 100, or a multiple of 400: each of the four cases is stated |
| Calendar.YearLengthLeap | src/utils/dataUtils.js:165-167 | a year has 366 days exactly when isLeapYear holds, else 365 |
| Calendar.DayOfYear | src/utils/dataUtils.js:147-151 | the position of a date in its year is its day-number difference from 1 January plus one (the `Math.floor((today - start) / day) + 1` of the source), between 1 and the length of the year |
| Calendar.MakeDate | src/utils/dataUtils.js:35 | `new Date(y, m, d)` always yields a valid calendar date, whatever the month index and day |
| Calendar.MonthStart | src/utils/dataUtils.js:35 | the first of the month the month index falls in, after carrying whole years, is a valid date |
| Calendar.NormalizeDayNumber | src/utils/dataUtils.js:35 | rolling a day over within a month lands `d - 1` days after that month's first day, for any day, negative or past the month's end |
| Calendar.MakeDateDayNumber | src/utils/dataUtils.js:35 | `new Date(y, m, d)` lies `d - 1` days after the first of month index `m` of year `y` |
| Calendar.MakeDateRollover | src/utils/dataUtils.js:35 | `new Date(y, m, d)` is the one valid date lying `d - 1` days after the first of month index `m` |
| Calendar.DayNumberInjective | src/utils/dataUtils.js:35 | two valid dates with the same day number are the same date |
| Calendar.DayZero | src/utils/dataUtils.js:162-164 | day 0 of a month is the last day of the previous month (the daysInMonth trick) |
| Calendar.DayAfterLast | src/utils/dataUtils.js:35 | the day after the last of a month is the first of the next month, across the year end too |
| Calendar.RolloverExamples | src/utils/dataUtils.js:35 | 31 February 2024 is 2 March, 31 February 2023 is 3 March, day 0 of January 2024 is 31 December 2023 |
| Calendar.NormalizeValid | src/utils/dataUtils.js:35 | the rollover leaves an in-range day unchanged |
| Calendar.MakeDateOfValid | src/utils/dataUtils.js:35 | building a date from its own fields gives it back (years outside 0..99) |
| Calendar.DaysInMonth | src/utils/dataUtils.js:162-164 | daysInMonth is always between 28 and 31 |
| Calendar.DaysInMonthLength | src/utils/dataUtils.js:162-164 | for months 1..12, daysInMonth is the Gregorian length of that month of the (shifted) year |
| Calendar.FebruaryLeap | src/utils/dataUtils.js:162-167 | February has 29 days exactly when isLeapYear holds for the year the Date uses |
| Calendar.MonthsMakeYear | src/utils/dataUtils.js:162-167 | the twelve daysInMonth of a year add up to 366 or 365 as isLeapYear says (years outside 0..99) |
| Records.ReplaceFirstComma | src/utils/dataUtils.js:42 | keeps the length and every character that is not a comma, in place; with no comma the text is unchanged |
| Records.FirstCommaReplaced | src/utils/dataUtils.js:42 | the comma replaced is the first one: the text before it has no comma, the text after it is kept |
| Records.ReplaceDecimalComma | src/utils/dataUtils.js:42 | the comma of `ip,fp` becomes a point when `ip` has no comma |
| Records.CleanNumber | src/utils/dataUtils.js:42 | the cleaned text is the subsequence of the comma-replaced text made of its digits, points and minus signs: it keeps their order and each one as often as it occurs there (digits and minus signs as often as in the input) |
| Records.CleanNumberIdempotent | src/utils/dataUtils.js:42 | cleaning a cleaned text changes nothing |
| Records.SafeNum | src/utils/dataUtils.js:38-46 | a number cell is its own value; a cell that is neither a number nor a string (null, missing, boolean, array, object) is 0 |
| Records.SafeNumText | src/utils/dataUtils.js:38-46 | a number written without exponent (0, or magnitude from 10^-6 to below 10^21) and its text give the same safeNum |
| Records.SafeNumOfClean | src/utils/dataUtils.js:41-43 | a string whose cleaned text `Number()` reads as `x` gives `x` |
| Records.SafeNumOfNumeral | src/utils/dataUtils.js:41-43 | a text of digits, points and minus signs reads as `Number()` reads it |
| Records.SafeNumDecimalComma | src/utils/dataUtils.js:41-43 | a French decimal `12,5` reads as 12.5 |
| Records.SafeNumUnreadable | src/utils/dataUtils.js:42-43 | a string whose cleaned text `Number()` reads as NaN gives 0 |
| Records.SafeNumTwoPoints | src/utils/dataUtils.js:42-43 | a string whose cleaned text holds two points (`"1.2.3"`) gives 0 |
| Records.SafeNumInnerMinus | src/utils/dataUtils.js:42-43 | a string whose cleaned text holds a minus sign after its first character (`"12,5-"`) gives 0 |
| Records.SafeNumNonNegative | src/utils/dataUtils.js:41-43 | a text with no minus sign never gives a negative number |
| Records.PatternDate | src/utils/dataUtils.js:31-36 | a DD/MM/YYYY text always parses to a valid date |
| Records.PatternDateDayNumber | src/utils/dataUtils.js:34-35 | the parsed date lies DD - 1 days after the first of month MM of year YYYY, so out-of-range days and months roll over |
| Records.PatternOfFields | src/utils/dataUtils.js:34-35 | a DD/MM/YYYY text whose fields are a valid date's (year at least 100) parses to that date |
| Records.ParseDate | src/utils/dataUtils.js:31-36 | a falsy cell gives no date; a truthy non-string throws (it has no `split`); a string gives a date exactly when it is DD/MM/YYYY, and that date is valid |
| Records.BookingRowDate | src/utils/dataUtils.js:9 | a row is kept exactly when it is an array of at least 9 cells whose second cell parses to a date |
| Records.ParseFormatDate | src/utils/dataUtils.js:9 | a date written as DD/MM/YYYY passes the row test and parses back to itself (years 100..9999) |
| Records.PaymentText | src/utils/dataUtils.js:19 | the stored payment text is trimmed |
| Records.ToEntry | src/utils/dataUtils.js:10-22 | mapping a booking row throws exactly when its check-out cell is truthy and not a string; otherwise the entry has a valid start date and a trimmed payment |
| Records.MapResult | src/utils/dataUtils.js:10 | `map` gives one result per row, in order, or throws exactly when some row throws |
| Records.ParseRows | src/utils/dataUtils.js:9-10 | the rows kept are a subsequence of the input; a parse that succeeds has one entry per kept row, in order, each that row's mapping |
| Records.ParseRowsError | src/utils/dataUtils.js:9-22 | mapping the rows throws exactly when some kept row has a bad check-out cell |
| Records.ParseProperty | src/utils/dataUtils.js:7-22 | for an array, a parse that succeeds has one entry per kept row, in order, each that row's mapping |
| Records.ParsePropertyError | src/utils/dataUtils.js:7-22 | a property throws exactly when it is truthy and not an array, or when a kept row has a bad check-out cell |
| Records.ParsePropertyEntries | src/utils/dataUtils.js:9-22 | every parsed entry has a valid start date and a trimmed payment |
| Records.ParseGitesData | src/utils/dataUtils.js:3-25 | the result has the feed's keys, each holding that property's entries; the parse throws exactly when some property throws |
| Periods.IsHomeExchange | src/utils/dataUtils.js:27-29 | an empty payment text is never a home exchange; a home exchange's payment text has at least 12 characters |
| Periods.HomeExchangeCaseless | src/utils/dataUtils.js:27-29 | case and surrounding blanks do not change the home-exchange test |
| Periods.EntryMatch | src/utils/dataUtils.js:200-206 | a booking matches only when it has a start date in the year; with no month every such booking matches; with a month it must start in that month |
| Periods.EntryMatchOneMonth | src/utils/dataUtils.js:200-206 | a dated booking matches a month of a year exactly when it matches the year and starts in that month |
| Periods.FilterDataByPeriod | src/utils/dataUtils.js:57-68 | the selection is no longer than the input, and every booking in it matches the period and is not a home exchange |
| Periods.Selected | src/utils/dataUtils.js:58-67 | the filter callback holds exactly when the booking matches the period and is not a home exchange |
| Periods.FilterDataByPeriodMembers | src/utils/dataUtils.js:57-68 | each booking occurs in the selection as often as in the input if it matches and is not a home exchange, else never |
| Periods.FilterDataByPeriodSubseq | src/utils/dataUtils.js:57-68 | the selection keeps the input's order (it is a subsequence) |
| Periods.FilterDataByPeriodAppend | src/utils/dataUtils.js:57-68 | selecting from two lists joined is joining the two selections |
| Periods.FilterMonthOfYear | src/utils/dataUtils.js:57-68 | selecting a month from the year's selection is selecting that month |
| Periods.SumFiltered | src/utils/dataUtils.js:57-68 | a sum over the selection equals the sum over the input of the bookings that match and are not home exchanges |
| Periods.MatchSumWithin | src/utils/dataUtils.js:186-187 | with no negative weight, a narrower booking test sums to no more |
| Periods.MonthsMakeYearSum | src/utils/dataUtils.js:200-206 | for dated bookings, the twelve monthly sums of a year add up to the yearly sum |
| Periods.GetAvailableYears | src/utils/dataUtils.js:48-55 | the years of all start dates, home exchanges included, each once, in strictly decreasing order |
| Periods.SortDescending | src/utils/dataUtils.js:54 | the set's elements, each once, in strictly decreasing order |
| Periods.Largest | src/utils/dataUtils.js:54 | the largest element of a non-empty set |
| Stats.SumOne | src/utils/dataUtils.js:76 | summing one per booking counts the bookings |
| Stats.ComputeGlobalStats | src/utils/dataUtils.js:72-81 | each header total is the sum over all properties of that property's figure for the period |
| Stats.PerPropertyAdd | src/utils/dataUtils.js:74-79 | taking one more property into the loop adds its own figure |
| Stats.TotalAddProperty | src/utils/dataUtils.js:72-81 | adding a property to the dataset adds its card's figure to the header total |
| Stats.Label | src/utils/dataUtils.js:103 | the payment tag is never empty |
| Stats.Fold | src/utils/dataUtils.js:109-110 | folding keeps the length, leaves none of é, è, ê, ë, à, â, and leaves every other character where it was |
| Stats.FoldIdempotent | src/utils/dataUtils.js:109-110 | folding twice is folding once |
| Stats.Classify | src/utils/dataUtils.js:107-120 | no group exactly when the folded tag includes no pattern; otherwise the group of a pattern it includes, no earlier pattern being included |
| Stats.FirstMatchSpec | src/utils/dataUtils.js:112-120 | the group chosen is that of a pattern the tag includes with no earlier pattern included; no group means no pattern is included |
| Stats.ChequeTestDead | src/utils/dataUtils.js:118 | the `includes("chèque")` test never succeeds, its è having been folded away |
| Stats.ChequeClassified | src/utils/dataUtils.js:107-120 | the tag "Chèque" falls in the transfer/cheque group, caught by the "cheque" test |
| Stats.NoGroupWithoutIOrH | src/utils/dataUtils.js:107-120 | a tag with no i and no h, in either case, is in no group |
| Stats.CircumflexGitesUnclassified | src/utils/dataUtils.js:107-120 | "Gîtes de France" written with its circumflex is in no group |
| Stats.Mean | src/utils/dataUtils.js:89-90 | for a non-zero count, the mean times the count is the total; for a zero count the mean is 0 |
| Stats.ComputeGiteStats | src/utils/dataUtils.js:84-133 | the counts and sums are over the selection; the means are guarded; the payments map has exactly the tags that occur, each holding its bookings' revenue, and sums to the revenue; the guest-night buckets hold each group's guest-nights |
| Stats.TallyStep | src/utils/dataUtils.js:102-121 | one more booking adds its revenue to its tag and its guest-nights to its group, and nothing else |
| Stats.TallyByPayment | src/utils/dataUtils.js:102-121 | the loop builds the revenue per tag and the guest-nights per group of the selection |
| Stats.AddPayment | src/utils/dataUtils.js:104-105 | the tag's entry, started at 0 when missing, grows by the amount; the other tags are unchanged |
| Stats.BreakdownPrefix | src/utils/dataUtils.js:111-120 | one more booking adds its guest-nights to its group's bucket only |
| Stats.GroupsPartition | src/utils/dataUtils.js:111-120 | the four buckets and the unclassified guest-nights add up to all the guest-nights of the selection |
| Occupation.DaysInPeriod | src/utils/dataUtils.js:140-156 | a month has 28 to 31 days; a past or future year has 366 days exactly in a leap year; the current year counts the days from 1 January to today inclusive, the day-number difference plus one |
| Occupation.DaysInPeriodMonth | src/utils/dataUtils.js:143-144 | a month's period is that calendar month's length |
| Occupation.DaysInPeriodToday | src/utils/dataUtils.js:146-151 | on 1 January one day has elapsed, on 31 December the whole year |
| Occupation.MonthsMakePeriod | src/utils/dataUtils.js:143-155 | the twelve monthly periods of a past or future year make its yearly period |
| Occupation.TimesIsProduct | src/utils/dataUtils.js:158 | a value counted `n` times is the value times `n` |
| Occupation.ComputeOccupation | src/utils/dataUtils.js:136-159 | the occupation counted once per day of the period gives back the nights of the selection |
| Occupation.OccupationNonNegative | src/utils/dataUtils.js:136-159 | with no negative night count, the occupation is not negative |
| Occupation.GetOccupationPerYear | src/utils/dataUtils.js:170-175 | one gauge per input year, in the same order, each naming its year |
| Occupation.OccupationPerYearNights | src/utils/dataUtils.js:170-175 | each year's gauge, counted over its period's days, is that year's (or month's) nights |
| Occupation.WeightedMonthsNights | src/utils/dataUtils.js:136-159 | the monthly gauges weighted by their month lengths add up to the months' nights |
| Occupation.YearOccupationFromMonths | src/utils/dataUtils.js:136-159 | a past or future year's gauge is the month-length weighted mean of its twelve monthly gauges |
| Urssaf.Declared | src/utils/dataUtils.js:186-190 | a property missing from the data declares 0, its bookings defaulting to the empty list |
| Urssaf.DeclaredAll | src/utils/dataUtils.js:185-191 | a list of names none of which is in the data declares 0 |
| Urssaf.ComputeUrssaf | src/utils/dataUtils.js:179-199 | Sébastien's figure is the sum of his three properties' declared takings, Soazig's that of hers |
| Urssaf.AddTakings | src/utils/dataUtils.js:186-190 | the inner loop adds the revenue of every booking that matches the period and passes the payment test |
| Urssaf.DeclaredAllPrefix | src/utils/dataUtils.js:185-191 | one more property adds its own declared takings |
| Urssaf.UrssafNotHomeExchange | src/utils/dataUtils.js:178 | no declared payment tag is a home exchange, so the missing home-exchange check loses nothing |
| Urssaf.DeclaredWithinTurnover | src/utils/dataUtils.js:178-199 | with no negative revenue, a property's declaration is at most its card's revenue for the period |
| Urssaf.DeclaredMonthsMakeYear | src/utils/dataUtils.js:179-206 | for dated bookings, the twelve monthly declarations add up to the yearly one |

## Left out

- IEEE double arithmetic: sums, means and ratios are exact reals. NaN and the `|| 0` that turns NaN into 0 are therefore not modelled. Rounding, which would make the sums depend on the order of the properties and bookings, is not modelled either.
- `Number()` on exponent, hexadecimal, octal, binary and `Infinity` literals: these read as NaN here. Only decimal text is modelled.
- JsValues.NumText: writes every number in plain positional notation. JavaScript switches to exponent form at 10^21 and above and below 10^-6 in magnitude; so Records.SafeNumText is stated only for the numbers written without exponent.
- JsValues.NumberOf and Urssaf.IsUrssafPayment carry no `ensures`: the first is the `Number()` table over cell types, the second the literal membership test against the five declared tags. Urssaf.UrssafNotHomeExchange states what the second promises.
- The check-out cell `fin` of a non-empty string that is not DD/MM/YYYY: kept as uninterpreted text (`Unparsed`), because no result of the library reads it.
- Time of day, time zones and daylight saving time: dates are whole days in local time. `src/utils/dataUtils.js` line 151 divides milliseconds by a day's length and floors the result. Across a daylight-saving change this can be one hour short of a day, which the model does not capture.
- The current year in 0..99: the day count of the current year uses the day of the year of `today`, not `new Date(year, 0, 1)` with its 1900 shift.
- The clock: `today` is a parameter of `ComputeOccupation` and `GetOccupationPerYear`.
- Full Unicode lower-casing: only ASCII and the Latin-1 capitals are mapped.
- Object keys that clash with `Object.prototype` members (`constructor`, `__proto__`): the payment tags and property names are plain map keys.
- A `month` argument that is neither a number nor falsy: months are integers, 0 standing for every falsy value.
- `Object.keys` and `Object.values` order: the loops over properties take the keys in an arbitrary order. Every result is independent of it.
- Calendar.MonthsMakeYear: stated for years outside 0..99. In 0..99, daysInMonth uses the year 1900 + year but isLeapYear uses the year itself.
- Occupation.MonthsMakePeriod: stated for years outside 0..99, for the same reason.

=== FILE: calendar.dfy ===
/** The Gregorian calendar as JavaScript's Date object sees it in local time:
    leap years, month lengths, and the rollover `new Date(year, monthIndex, day)`
    performs on out-of-range months and days. Time of day, time zones and
    daylight saving time are not modelled. */
module Calendar {

  /** A calendar day: year, month 1..12, day of month. */
  datatype Date = Date(y: int, m: int, d: int)

  /** The Gregorian leap-year rule. For the zero test JavaScript's truncating
      `%` and Dafny's Euclidean `%` agree, also on negative years. */
  predicate IsLeapYear(year: int)
    ensures IsLeapYear(year) ==> year % 4 == 0
    ensures year % 100 == 0 && year % 400 != 0 ==> !IsLeapYear(year)
    ensures year % 400 == 0 ==> IsLeapYear(year)
    ensures year % 4 == 0 && year % 100 != 0 ==> IsLeapYear(year)
  {
    Divisors(year);
    (year % 4 == 0 && year % 100 != 0) || year % 400 == 0
  }

  function MonthLength(y: int, m: int): (n: int)
    requires 1 <= m <= 12
    ensures 28 <= n <= 31
  {
    if m == 2 then (if IsLeapYear(y) then 29 else 28)
    else if m == 4 || m == 6 || m == 9 || m == 11 then 30
    else 31
  }

  predicate Valid(date: Date)
  {
    1 <= date.m <= 12 && 1 <= date.d <= MonthLength(date.y, date.m)
  }

  /** Number of days in the months of year `y` before month `m`. */
  function DaysBefore(y: int, m: int): (n: int)
    requires 1 <= m <= 13
    ensures 28 * (m - 1) <= n <= 31 * (m - 1)
  {
    if m == 1 then 0 else DaysBefore(y, m - 1) + MonthLength(y, m - 1)
  }

  /** The length of a year, as the sum of its twelve months. */
  function YearLength(y: int): int
  {
    DaysBefore(y, 13)
  }

  /** A year has 366 days exactly when it is a leap year. */
  lemma YearLengthLeap(y: int)
    ensures YearLength(y) == if IsLeapYear(y) then 366 else 365
  {
    var feb := MonthLength(y, 2);
    assert DaysBefore(y, 3) == 31 + feb;
    assert DaysBefore(y, 4) == 62 + feb;
    assert DaysBefore(y, 5) == 92 + feb;
    assert DaysBefore(y, 6) == 123 + feb;
    assert DaysBefore(y, 7) == 153 + feb;
    assert DaysBefore(y, 8) == 184 + feb;
    assert DaysBefore(y, 9) == 215 + feb;
    assert DaysBefore(y, 10) == 245 + feb;
    assert DaysBefore(y, 11) == 276 + feb;
    assert DaysBefore(y, 12) == 306 + feb;
  }

  /** Position of a valid date within its year, 1 for the first of January. */
  function DayOfYear(date: Date): (n: int)
    requires Valid(date)
    ensures 1 <= n <= YearLength(date.y)
    ensures n == DayNumber(date) - DayNumber(Date(date.y, 1, 1)) + 1
  {
    DaysBeforeMonotone(date.y, date.m + 1, 13);
    DaysBefore(date.y, date.m) + date.d
  }

  lemma {:induction false} DaysBeforeMonotone(y: int, m: int, n: int)
    requires 1 <= m <= n <= 13
    ensures DaysBefore(y, m) <= DaysBefore(y, n)
    decreases n - m
  {
    if m < n {
      DaysBeforeMonotone(y, m, n - 1);
    }
  }

  /** The year JavaScript's Date constructor uses: 0..99 mean 1900..1999. */
  function FullYear(year: int): (r: int)
    ensures 0 <= year <= 99 ==> r == 1900 + year
    ensures (year < 0 || year > 99) ==> r == year
  {
    if 0 <= year <= 99 then 1900 + year else year
  }

  function Previous(y: int, m: int): (int, int)
    requires 1 <= m <= 12
  {
    if m == 1 then (y - 1, 12) else (y, m - 1)
  }

  function Next(y: int, m: int): (int, int)
    requires 1 <= m <= 12
  {
    if m == 12 then (y + 1, 1) else (y, m + 1)
  }

  /** Day `d` of month `m` of year `y`, where `d` may lie outside the month:
      day 0 is the last day of the previous month, day 32 of January is the
      first of February, and so on. */
  function Normalize(y: int, m: int, d: int): (r: Date)
    requires 1 <= m <= 12
    ensures Valid(r)
    decreases if d < 1 then 1 else 0, if d < 1 then -d else d
  {
    if d < 1 then
      var (py, pm) := Previous(y, m);
      Normalize(py, pm, d + MonthLength(py, pm))
    else if d > MonthLength(y, m) then
      var (ny, nm) := Next(y, m);
      Normalize(ny, nm, d - MonthLength(y, m))
    else Date(y, m, d)
  }

  /** `new Date(year, monthIndex, day)` read back in local time: the year is
      shifted by FullYear, the zero-based month index rolls over into the
      year (Dafny's `/` and `%` by 12 are floor division and a non-negative
      remainder, as the Date algorithm requires), and the day rolls over into
      the months. */
  function MakeDate(year: int, monthIndex: int, day: int): (r: Date)
    ensures Valid(r)
  {
    Normalize(FullYear(year) + monthIndex / 12, monthIndex % 12 + 1, day)
  }

  /* ------------------------------------------------------ day numbers */

  /** The number of days before the first of January of year `y`, counted
      from the first of January of year 1 (negative before it). Dafny's `/`
      by a positive constant is floor division, so the leap days are counted
      right for every year. */
  function YearStart(y: int): int
  {
    365 * (y - 1) + (y - 1) / 4 - (y - 1) / 100 + (y - 1) / 400
  }

  lemma YearStartStep(y: int)
    ensures YearStart(y + 1) == YearStart(y) + YearLength(y)
  {
    YearLengthLeap(y);
    LeapDays(y);
  }

  /** One more year adds one leap day exactly when that year is a leap year. */
  lemma LeapDays(y: int)
    ensures (y / 4 - (y - 1) / 4) - (y / 100 - (y - 1) / 100) + (y / 400 - (y - 1) / 400)
      == if IsLeapYear(y) then 1 else 0
  {
    StepDiv4(y);
    StepDiv100(y);
    StepDiv400(y);
    Divisors(y);
  }

  lemma StepDiv4(y: int)
    ensures y / 4 - (y - 1) / 4 == if y % 4 == 0 then 1 else 0
  {
  }

  lemma StepDiv100(y: int)
    ensures y / 100 - (y - 1) / 100 == if y % 100 == 0 then 1 else 0
  {
  }

  lemma StepDiv400(y: int)
    ensures y / 400 - (y - 1) / 400 == if y % 400 == 0 then 1 else 0
  {
  }

  lemma Divisors(y: int)
    ensures y % 400 == 0 ==> y % 100 == 0
    ensures y % 100 == 0 ==> y % 4 == 0
  {
  }

  lemma {:induction false} YearStartMonotone(y: int, z: int)
    requires y <= z
    ensures YearStart(y) + 365 * (z - y) <= YearStart(z)
    decreases z - y
  {
    if y < z {
      YearStartMonotone(y, z - 1);
      YearStartStep(z - 1);
      YearLengthLeap(z - 1);
    }
  }

  /** The absolute number of a date, counted from the first of January of
      year 1, which is day 1. */
  function DayNumber(date: Date): int
    requires 1 <= date.m <= 12
  {
    YearStart(date.y) + DaysBefore(date.y, date.m) + date.d
  }

  /** The first of the next month comes a month's length after the first of
      this one. */
  lemma NextMonthStart(y: int, m: int)
    requires 1 <= m <= 12
    ensures var (ny, nm) := Next(y, m);
      DayNumber(Date(ny, nm, 1)) == DayNumber(Date(y, m, 1)) + MonthLength(y, m)
  {
    if m == 12 {
      YearStartStep(y);
    }
  }

  /** Normalize counts days: day `d` of month `m` is `d - 1` days after its
      first, wherever that lands. */
  lemma {:induction false} NormalizeDayNumber(y: int, m: int, d: int)
    requires 1 <= m <= 12
    ensures DayNumber(Normalize(y, m, d)) == DayNumber(Date(y, m, 1)) + d - 1
    decreases if d < 1 then 1 else 0, if d < 1 then -d else d
  {
    if d < 1 {
      var p := Previous(y, m);
      var n := MonthLength(p.0, p.1);
      NormalizeDayNumber(p.0, p.1, d + n);
      assert Normalize(y, m, d) == Normalize(p.0, p.1, d + n);
      PreviousMonthStart(y, m);
    } else if d > MonthLength(y, m) {
      var q := Next(y, m);
      var n := MonthLength(y, m);
      NormalizeDayNumber(q.0, q.1, d - n);
      assert Normalize(y, m, d) == Normalize(q.0, q.1, d - n);
      NextMonthStart(y, m);
    } else {
      assert Normalize(y, m, d) == Date(y, m, d);
    }
  }

  lemma PreviousMonthStart(y: int, m: int)
    requires 1 <= m <= 12
    ensures var p := Previous(y, m);
      DayNumber(Date(p.0, p.1, 1)) + MonthLength(p.0, p.1) == DayNumber(Date(y, m, 1))
  {
    var p := Previous(y, m);
    NextMonthStart(p.0, p.1);
    assert Next(p.0, p.1) == (y, m);
  }

  /** A valid date lies in its own year's range of day numbers. */
  lemma DayNumberInYear(date: Date)
    requires Valid(date)
    ensures YearStart(date.y) < DayNumber(date) <= YearStart(date.y + 1)
  {
    DaysBeforeMonotone(date.y, date.m + 1, 13);
    YearStartStep(date.y);
  }

  /** Two valid dates with the same day number are the same date, so the
      day number of Normalize's result determines it. */
  lemma DayNumberInjective(a: Date, b: Date)
    requires Valid(a) && Valid(b) && DayNumber(a) == DayNumber(b)
    ensures a == b
  {
    if a.y < b.y {
      EarlierYear(a, b);
    } else if b.y < a.y {
      EarlierYear(b, a);
    } else if a.m < b.m {
      EarlierMonth(a, b);
    } else if b.m < a.m {
      EarlierMonth(b, a);
    }
  }

  lemma EarlierYear(a: Date, b: Date)
    requires Valid(a) && Valid(b) && a.y < b.y
    ensures DayNumber(a) < DayNumber(b)
  {
    DayNumberInYear(a);
    DayNumberInYear(b);
    YearStartMonotone(a.y + 1, b.y);
  }

  lemma EarlierMonth(a: Date, b: Date)
    requires Valid(a) && Valid(b) && a.y == b.y && a.m < b.m
    ensures DayNumber(a) < DayNumber(b)
  {
    DaysBeforeMonotone(a.y, a.m + 1, b.m);
  }

  /** Day 0 of a month is the last day of the previous month. */
  lemma DayZero(y: int, m: int)
    requires 1 <= m <= 12
    ensures var (py, pm) := Previous(y, m);
      Normalize(y, m, 0) == Date(py, pm, MonthLength(py, pm))
  {
  }

  /** The day after the last of a month is the first of the next month. */
  lemma DayAfterLast(y: int, m: int)
    requires 1 <= m <= 12
    ensures var (ny, nm) := Next(y, m);
      Normalize(y, m, MonthLength(y, m) + 1) == Date(ny, nm, 1)
  {
  }

  /** The first of the month that a month index names in `new Date`: the
      index rolled over into the year, and years 0..99 shifted to 1900..1999. */
  function MonthStart(year: int, monthIndex: int): (r: Date)
    ensures Valid(r) && r.d == 1
  {
    Date(FullYear(year) + monthIndex / 12, monthIndex % 12 + 1, 1)
  }

  /** `new Date(year, monthIndex, day)` is `day - 1` days after the first of
      the month the index names. */
  lemma MakeDateDayNumber(year: int, monthIndex: int, day: int)
    ensures DayNumber(MakeDate(year, monthIndex, day)) == DayNumber(MonthStart(year, monthIndex)) + day - 1
  {
    var y, m := FullYear(year) + monthIndex / 12, monthIndex % 12 + 1;
    assert MakeDate(year, monthIndex, day) == Normalize(y, m, day);
    assert MonthStart(year, monthIndex) == Date(y, m, 1);
    NormalizeDayNumber(y, m, day);
  }

  /** So `new Date(year, monthIndex, day)` is the one valid date that many
      days after that first of the month. */
  lemma MakeDateRollover(year: int, monthIndex: int, day: int, date: Date)
    requires Valid(date)
    requires DayNumber(date) == DayNumber(MonthStart(year, monthIndex)) + day - 1
    ensures MakeDate(year, monthIndex, day) == date
  {
    MakeDateDayNumber(year, monthIndex, day);
    DayNumberInjective(MakeDate(year, monthIndex, day), date);
  }

  /** 31 February is 2 March in a leap year and 3 March otherwise; day 0 of
      January is 31 December of the year before. */
  lemma RolloverExamples()
    ensures MakeDate(2024, 1, 31) == Date(2024, 3, 2)
    ensures MakeDate(2023, 1, 31) == Date(2023, 3, 3)
    ensures MakeDate(2024, 0, 0) == Date(2023, 12, 31)
  {
  }

  /** A valid date is its own normal form. */
  lemma NormalizeValid(date: Date)
    requires Valid(date)
    ensures Normalize(date.y, date.m, date.d) == date
  {
  }

  /** Building a date from its own year, zero-based month and day gives it
      back, once the year is outside the 0..99 shift. */
  lemma MakeDateOfValid(date: Date)
    requires Valid(date) && (date.y < 0 || date.y > 99)
    ensures MakeDate(date.y, date.m - 1, date.d) == date
  {
    assert (date.m - 1) / 12 == 0 && (date.m - 1) % 12 == date.m - 1;
  }

  /** daysInMonth(month, year): the day before the first of the month after
      `month` (a one-based month number), i.e. `new Date(year, month, 0)`. */
  function DaysInMonth(month: int, year: int): (n: int)
    ensures 28 <= n <= 31
  {
    MakeDate(year, month, 0).d
  }

  /** For a month number 1..12, daysInMonth is the length of that month of the
      (shifted) year. */
  lemma DaysInMonthLength(month: int, year: int)
    requires 1 <= month <= 12
    ensures DaysInMonth(month, year) == MonthLength(FullYear(year), month)
  {
    var y := FullYear(year);
    if month == 12 {
      assert month / 12 == 1 && month % 12 == 0;
      assert MakeDate(year, month, 0) == Normalize(y + 1, 1, 0);
    } else {
      assert month / 12 == 0 && month % 12 == month;
      assert MakeDate(year, month, 0) == Normalize(y, month + 1, 0);
    }
  }

  /** February has 29 days exactly in leap years. */
  lemma FebruaryLeap(year: int)
    ensures DaysInMonth(2, year) == 29 <==> IsLeapYear(FullYear(year))
  {
    DaysInMonthLength(2, year);
  }

  /** Sum of daysInMonth over the months 1..m-1. */
  function MonthDays(year: int, m: int): int
    requires 1 <= m <= 13
  {
    if m == 1 then 0 else MonthDays(year, m - 1) + DaysInMonth(m - 1, year)
  }

  /** The twelve daysInMonth of a year add up to its length (the year being
      outside the 0..99 shift, which isLeapYear does not apply). */
  lemma {:induction false} MonthsMakeYear(year: int)
    requires year < 0 || year > 99
    ensures MonthDays(year, 13) == if IsLeapYear(year) then 366 else 365
  {
    MonthDaysBefore(year, 13);
    YearLengthLeap(year);
  }

  lemma {:induction false} MonthDaysBefore(year: int, m: int)
    requires year < 0 || year > 99
    requires 1 <= m <= 13
    ensures MonthDays(year, m) == DaysBefore(year, m)
  {
    if m > 1 {
      MonthDaysBefore(year, m - 1);
      DaysInMonthLength(m - 1, year);
    }
  }
}

=== FILE: js_strings.dfy ===
/** The few JavaScript string operations the aggregation layer relies on:
    String.prototype.trim, toLowerCase (restricted to ASCII and Latin-1
    letters), includes, and decimal digit strings. */
module JsStrings {

  /** The characters String.prototype.trim removes: ECMAScript WhiteSpace and
      LineTerminator. */
  predicate IsJsSpace(c: char)
  {
    c == ' ' || c == '\t' || c == '\n' || c == '\r' || c == '\U{B}' || c == '\U{C}'
    || c == '\U{A0}' || c == '\U{1680}' || ('\U{2000}' <= c <= '\U{200A}')
    || c == '\U{2028}' || c == '\U{2029}' || c == '\U{202F}' || c == '\U{205F}'
    || c == '\U{3000}' || c == '\U{FEFF}'
  }

  /** `s` without its leading white space. */
  function TrimStart(s: string): (r: string)
    ensures |r| <= |s| && r == s[|s| - |r|..]
    ensures forall i :: 0 <= i < |s| - |r| ==> IsJsSpace(s[i])
    ensures r == [] || !IsJsSpace(r[0])
  {
    if s != [] && IsJsSpace(s[0]) then
      var r := TrimStart(s[1..]);
      assert s[1..][|s| - 1 - |r|..] == s[|s| - |r|..];
      assert forall i :: 1 <= i < |s| - |r| ==> s[i] == s[1..][i - 1];
      r
    else s
  }

  /** `s` without its trailing white space. */
  function TrimEnd(s: string): (r: string)
    ensures |r| <= |s| && r == s[..|r|]
    ensures forall i :: |r| <= i < |s| ==> IsJsSpace(s[i])
    ensures r == [] || !IsJsSpace(r[|r| - 1])
  {
    if s != [] && IsJsSpace(s[|s| - 1]) then
      var r := TrimEnd(s[..|s| - 1]);
      assert s[..|s| - 1][..|r|] == s[..|r|];
      assert forall i :: |r| <= i < |s| - 1 ==> s[i] == s[..|s| - 1][i];
      r
    else s
  }

  /** String.prototype.trim. */
  function Trim(s: string): (r: string)
    ensures |r| <= |s|
    ensures r == [] || (!IsJsSpace(r[0]) && !IsJsSpace(r[|r| - 1]))
  {
    TrimEnd(TrimStart(s))
  }

  /** The trimmed text is the part of `s` left once the white space at its
      two ends is cut off; so trimming brings in no character. */
  lemma TrimInfix(s: string)
    ensures var r := Trim(s);
      exists a ::
        && 0 <= a <= |s| - |r|
        && r == s[a..][..|r|]
        && (forall i :: 0 <= i < a ==> IsJsSpace(s[i]))
        && (forall i :: a + |r| <= i < |s| ==> IsJsSpace(s[i]))
    ensures forall c :: c in Trim(s) ==> c in s
  {
    var t := TrimStart(s);
    var r := TrimEnd(t);
    var a := |s| - |t|;
    assert t == s[a..];
    forall i | a + |r| <= i < |s| ensures IsJsSpace(s[i]) {
      assert s[i] == t[i - a];
    }
    assert r == s[a..][..|r|];
    SliceChars(s, a, |r|);
  }

  /** A slice holds only characters of the whole. */
  lemma SliceChars(s: string, a: int, n: int)
    requires 0 <= a && 0 <= n && a + n <= |s|
    ensures forall c :: c in s[a..][..n] ==> c in s
  {
    forall c | c in s[a..][..n] ensures c in s {
      var k :| 0 <= k < n && s[a..][..n][k] == c;
      assert s[a + k] == c;
    }
  }

  /** A string that neither starts nor ends with white space is its own trim;
      in particular trimming twice is trimming once. */
  lemma TrimUnchanged(s: string)
    requires s == [] || (!IsJsSpace(s[0]) && !IsJsSpace(s[|s| - 1]))
    ensures Trim(s) == s
  {
    var t := TrimStart(s);
    assert t == s;
    assert TrimEnd(t) == t;
  }

  lemma TrimIdempotent(s: string)
    ensures Trim(Trim(s)) == Trim(s)
  {
    TrimUnchanged(Trim(s));
  }

  /** A string made only of white space trims to the empty string, and only
      such a string does. */
  lemma {:induction false} TrimEmpty(s: string)
    ensures Trim(s) == [] <==> forall i :: 0 <= i < |s| ==> IsJsSpace(s[i])
  {
    var t := TrimStart(s);
    if Trim(s) == [] {
      assert TrimEnd(t) == [];
      assert t == [];
    } else {
      assert t != [];
      assert !IsJsSpace(t[0]) && t[0] == s[|s| - |t|];
    }
  }

  /** The upper-case letters toLowerCase maps here: A-Z and the Latin-1
      capitals U+00C0-U+00DE, except the multiplication sign U+00D7. */
  predicate IsCapital(c: char)
  {
    'A' <= c <= 'Z' || ('\U{C0}' <= c <= '\U{DE}' && c != '\U{D7}')
  }

  /** String.prototype.toLowerCase on one character: a capital becomes the
      small letter 32 code points further on. */
  function LowerChar(c: char): char
  {
    if IsCapital(c) then (c as int + 32) as char else c
  }

  /** String.prototype.toLowerCase: no capital is left, and every other
      character stays where it was. */
  function ToLowerCase(s: string): (r: string)
    ensures |r| == |s|
    ensures forall i :: 0 <= i < |r| ==> !IsCapital(r[i])
    ensures forall i :: 0 <= i < |s| && !IsCapital(s[i]) ==> r[i] == s[i]
    ensures forall i :: 0 <= i < |s| && IsCapital(s[i]) ==> r[i] as int == s[i] as int + 32
  {
    seq(|s|, i requires 0 <= i < |s| => LowerChar(s[i]))
  }

  /** The payment tag of a home exchange, as typed in the sheet, lower-cases
      to the text isHomeExchange compares with. */
  lemma ToLowerCaseHomeExchange()
    ensures ToLowerCase("HomeExchange") == "homeexchange"
  {
    var r := ToLowerCase("HomeExchange");
    assert r[0] == 'h' && r[4] == 'e';
  }

  /** Lower-casing twice is lower-casing once. */
  lemma ToLowerCaseIdempotent(s: string)
    ensures ToLowerCase(ToLowerCase(s)) == ToLowerCase(s)
  {
  }

  /** String.prototype.includes: `t` occurs in `s`, at its start or further
      on. */
  predicate Contains(s: string, t: string)
    decreases |s|
  {
    |t| <= |s| && (s[..|t|] == t || Contains(s[1..], t))
  }

  predicate OccursAt(s: string, t: string, i: int)
  {
    0 <= i && i + |t| <= |s| && s[i..i + |t|] == t
  }

  /** `t` is contained in `s` exactly when it occurs at some position of `s`. */
  lemma {:induction false} ContainsAt(s: string, t: string)
    ensures Contains(s, t) <==> exists i :: OccursAt(s, t, i)
    decreases |s|
  {
    if |t| <= |s| {
      if s[..|t|] == t {
        assert OccursAt(s, t, 0);
      } else {
        ContainsAt(s[1..], t);
        if exists i :: OccursAt(s, t, i) {
          var i :| OccursAt(s, t, i);
          assert i != 0;
          assert s[1..][i - 1..i - 1 + |t|] == s[i..i + |t|];
          assert OccursAt(s[1..], t, i - 1);
        }
        if Contains(s[1..], t) {
          var j :| OccursAt(s[1..], t, j);
          assert s[j + 1..j + 1 + |t|] == s[1..][j..j + |t|];
          assert OccursAt(s, t, j + 1);
        }
      }
    }
  }

  /** A string that lacks some character of `t` cannot contain `t`. */
  lemma {:induction false} NotContainsMissingChar(s: string, t: string, k: nat)
    requires k < |t| && t[k] !in s
    ensures !Contains(s, t)
    decreases |s|
  {
    if |t| <= |s| {
      assert s[..|t|][k] == s[k];
      NotContainsMissingChar(s[1..], t, k);
    }
  }

  predicate IsDigit(c: char) { '0' <= c <= '9' }

  predicate AllDigits(s: string) { forall i :: 0 <= i < |s| ==> IsDigit(s[i]) }

  /** Digits, points and minus signs are not white space. */
  lemma NotSpace(c: char)
    requires IsDigit(c) || c == '.' || c == '-'
    ensures !IsJsSpace(c)
  {
  }

  function DigitChar(k: nat): (c: char)
    requires k < 10
    ensures IsDigit(c)
  {
    ('0' as int + k) as char
  }

  /** The number written by a string of decimal digits (0 for the empty one). */
  function DigitsValue(s: string): nat
    requires AllDigits(s)
  {
    if s == [] then 0
    else DigitsValue(s[..|s| - 1]) * 10 + (s[|s| - 1] as int - '0' as int)
  }

  function Pow10(n: nat): (r: nat)
    ensures r >= 1
  {
    if n == 0 then 1 else 10 * Pow10(n - 1)
  }

  /** Appending digit strings: the value of `a + b` is `a` shifted by |b| digits plus `b`. */
  lemma {:induction false} DigitsValueAppend(a: string, b: string)
    requires AllDigits(a) && AllDigits(b)
    ensures AllDigits(a + b)
    ensures DigitsValue(a + b) == DigitsValue(a) * Pow10(|b|) + DigitsValue(b)
  {
    if b != [] {
      var b' := b[..|b| - 1];
      var ab := a + b;
      assert AllDigits(ab);
      assert ab[..|ab| - 1] == a + b';
      DigitsValueAppend(a, b');
      var x, y, p, d := DigitsValue(a), DigitsValue(b'), Pow10(|b'|), b[|b| - 1] as int - '0' as int;
      assert DigitsValue(a + b') == x * p + y;
      assert DigitsValue(ab) == DigitsValue(a + b') * 10 + d;
      assert DigitsValue(b) == y * 10 + d;
      assert Pow10(|b|) == p * 10;
      MulShift(x, p, y, d);
    } else {
      assert a + b == a;
    }
  }

  lemma MulShift(x: int, p: int, y: int, d: int)
    ensures (x * p + y) * 10 + d == x * (p * 10) + (y * 10 + d)
  {
  }

  /** Leading zeros do not change the value of a digit string. */
  lemma {:induction false} DigitsValueZeros(n: nat, s: string)
    requires AllDigits(s)
    ensures AllDigits(Zeros(n) + s)
    ensures DigitsValue(Zeros(n) + s) == DigitsValue(s)
  {
    ZerosValue(n);
    DigitsValueAppend(Zeros(n), s);
  }

  function Zeros(n: nat): (r: string)
    ensures |r| == n && AllDigits(r)
  {
    if n == 0 then "" else "0" + Zeros(n - 1)
  }

  lemma {:induction false} ZerosValue(n: nat)
    ensures DigitsValue(Zeros(n)) == 0
  {
    if n > 0 {
      assert Zeros(n)[..n - 1] == Zeros(n - 1) by {
        assert Zeros(n) == Zeros(n - 1) + "0" by { ZerosSnoc(n); }
      }
      ZerosValue(n - 1);
    }
  }

  lemma {:induction false} ZerosSnoc(n: nat)
    requires n > 0
    ensures Zeros(n) == Zeros(n - 1) + "0"
  {
    if n > 1 {
      ZerosSnoc(n - 1);
    }
  }

  /** The shortest decimal writing of a natural number (Number.prototype.toString
      for a non-negative integer below 10 to the 21st). */
  function NatText(n: nat): (r: string)
    ensures 1 <= |r| && AllDigits(r) && DigitsValue(r) == n
    ensures |r| > 1 ==> r[0] != '0'
  {
    if n < 10 then [DigitChar(n)]
    else
      var r := NatText(n / 10) + [DigitChar(n % 10)];
      assert r[..|r| - 1] == NatText(n / 10);
      r
  }

  /** A number below 10 to the k is written with at most k digits (k >= 1). */
  lemma {:induction false} NatTextLength(n: nat, k: nat)
    requires 1 <= k && n < Pow10(k)
    ensures |NatText(n)| <= k
  {
    if n >= 10 {
      NatTextLength(n / 10, k - 1);
    }
  }

  /** `s` padded on the left with zeros to `width` characters. */
  function PadLeft(s: string, width: nat): (r: string)
    requires AllDigits(s)
    ensures AllDigits(r) && |r| == if |s| < width then width else |s|
    ensures DigitsValue(r) == DigitsValue(s)
  {
    var n := if |s| < width then width - |s| else 0;
    DigitsValueZeros(n, s);
    Zeros(n) + s
  }
}

=== FILE: js_values.dfy ===
/** The JSON values a spreadsheet feed is made of, and the JavaScript
    conversions the parser applies to them: truthiness, String(v) / toString,
    and Number(v). Numbers are exact decimals (a JSON number literal denotes
    one); rounding to binary floating point is not modelled. */
module JsValues {
  import opened JsStrings

  datatype Option<T> = None | Some(value: T)

  /** The outcome of code that may throw: a value, or a TypeError. */
  datatype Result<T> = Ok(value: T) | TypeError

  /** The decimal number units / 10^scale. */
  datatype Decimal = Decimal(units: int, scale: nat)

  function DecimalValue(d: Decimal): real
  {
    Scaled(d.units, d.scale)
  }

  /** u / 10^k as a real number (k divisions by ten). */
  function Scaled(u: int, k: nat): real
  {
    if k == 0 then u as real else Scaled(u, k - 1) / 10.0
  }

  lemma {:induction false} ScaledNonNegative(u: int, k: nat)
    requires u >= 0
    ensures Scaled(u, k) >= 0.0
  {
    if k > 0 {
      ScaledNonNegative(u, k - 1);
    }
  }

  lemma {:induction false} ScaledAdd(u: int, v: int, k: nat)
    ensures Scaled(u + v, k) == Scaled(u, k) + Scaled(v, k)
  {
    if k > 0 {
      ScaledAdd(u, v, k - 1);
    }
  }

  lemma {:induction false} ScaledNeg(u: int, k: nat)
    ensures Scaled(-u, k) == -Scaled(u, k)
  {
    if k > 0 {
      ScaledNeg(u, k - 1);
    }
  }

  /** |u|. */
  function Magnitude(u: int): nat
  {
    if u < 0 then -u else u
  }


  /** (q * 10^k) / 10^k == q. */
  lemma {:induction false} ScaledPow(q: int, k: nat)
    ensures Scaled(q * Pow10(k), k) == q as real
    decreases k
  {
    if k > 0 {
      assert q * Pow10(k) == (10 * q) * Pow10(k - 1);
      ScaledPow(10 * q, k - 1);
    }
  }

  /** A cell of the feed. `Undefined` is what reading past the end of a row gives. */
  datatype Value =
    | Undefined
    | Null
    | Bool(b: bool)
    | Num(n: Decimal)
    | Str(s: string)
    | Arr(items: seq<Value>)
    | Obj

  /** JavaScript truthiness (the test of `||`, `&&` and `if`). */
  predicate Truthy(v: Value)
  {
    match v
    case Undefined => false
    case Null => false
    case Bool(b) => b
    case Num(n) => n.units != 0
    case Str(s) => s != ""
    case Arr(_) => true
    case Obj => true
  }

  /** String(v): what `v.toString()` gives for every value that has a
      toString (all but null and undefined). Arrays join their elements with
      commas, null and undefined elements giving the empty string. */
  function ToStr(v: Value): string
    decreases v, 1
  {
    match v
    case Undefined => "undefined"
    case Null => "null"
    case Bool(b) => if b then "true" else "false"
    case Num(n) => NumText(n)
    case Str(s) => s
    case Arr(items) => JoinItems(v, |items|)
    case Obj => "[object Object]"
  }

  /** The first `n` elements of the array `v`, joined with commas. */
  function JoinItems(v: Value, n: nat): string
    requires v.Arr? && n <= |v.items|
    decreases v, 0, n
  {
    if n == 0 then ""
    else (if n == 1 then "" else JoinItems(v, n - 1) + ",") + ElementText(v.items[n - 1])
  }

  function ElementText(x: Value): string
    decreases x, 2
  {
    if x.Undefined? || x.Null? then "" else ToStr(x)
  }

  /** `d` with the trailing zeros of its fraction removed. */
  function Normal(d: Decimal): (r: Decimal)
    ensures DecimalValue(r) == DecimalValue(d)
    ensures r.scale == 0 || r.units % 10 != 0
    decreases d.scale
  {
    if d.scale > 0 && d.units % 10 == 0 then
      var r := Decimal(d.units / 10, d.scale - 1);
      assert DecimalValue(r) == DecimalValue(d) by { ScaleDown(d.units / 10, d.scale - 1); }
      Normal(r)
    else d
  }

  lemma {:induction false} ScaleDown(u: int, s: nat)
    ensures Scaled(u * 10, s + 1) == Scaled(u, s)
  {
    if s > 0 {
      ScaleDown(u, s - 1);
    }
  }

  /** The numbers Number.prototype.toString writes without an exponent: 0,
      and those of magnitude at least 10^-6 and below 10^21. */
  predicate PlainRange(d: Decimal)
  {
    var x := DecimalValue(d);
    x == 0.0 || (0.000001 <= x < 1000000000000000000000.0) || (-1000000000000000000000.0 < x <= -0.000001)
  }

  /** Number.prototype.toString for a number written without exponent: an
      optional minus sign, the integer part, and the fraction without its
      trailing zeros. */
  function NumText(d: Decimal): string
  {
    DecimalText(Normal(d))
  }

  /** The text of a decimal as written: sign, integer part, fraction. */
  function DecimalText(n: Decimal): string
  {
    (if n.units < 0 then "-" else "") + UnsignedText(Magnitude(n.units), n.scale)
  }

  /** The text of a / 10^scale: integer part, then '.' and exactly `scale`
      fraction digits when scale > 0. */
  function UnsignedText(a: nat, scale: nat): string
  {
    NatText(IntPart(a, scale)) + (if scale == 0 then "" else "." + PadLeft(NatText(FracPart(a, scale)), scale))
  }

  /** a with its last k decimal digits dropped. */
  function IntPart(a: nat, k: nat): nat
  {
    if k == 0 then a else IntPart(a / 10, k - 1)
  }

  /** The number written by the last k decimal digits of a. */
  function FracPart(a: nat, k: nat): nat
  {
    if k == 0 then 0 else FracPart(a / 10, k - 1) * 10 + a % 10
  }

  lemma {:induction false} SplitDigits(a: nat, k: nat)
    ensures a == IntPart(a, k) * Pow10(k) + FracPart(a, k)
    ensures FracPart(a, k) < Pow10(k)
  {
    if k > 0 {
      SplitDigits(a / 10, k - 1);
      MulShift(IntPart(a, k), Pow10(k - 1), FracPart(a / 10, k - 1), a % 10);
    }
  }

  /** The text of a decimal uses only digits, '.' and '-', and no comma. */
  lemma DecimalTextChars(n: Decimal)
    ensures forall i :: 0 <= i < |DecimalText(n)| ==> IsDigit(DecimalText(n)[i]) || DecimalText(n)[i] == '.' || DecimalText(n)[i] == '-'
  {
    var a := Magnitude(n.units);
    UnsignedTextChars(a, n.scale);
    if n.units < 0 {
      NegativeText(n);
    } else {
      NonNegativeText(n);
    }
  }

  lemma UnsignedTextChars(a: nat, scale: nat)
    ensures forall i :: 0 <= i < |UnsignedText(a, scale)| ==> IsDigit(UnsignedText(a, scale)[i]) || UnsignedText(a, scale)[i] == '.'
  {
    if scale > 0 {
      FractionText(a, scale);
    }
  }

  /** Position of the first '.' in `t`, or |t| when there is none. */
  function DotIndex(t: string): (i: nat)
    ensures i <= |t| && (i < |t| ==> t[i] == '.')
    ensures forall j :: 0 <= j < i ==> t[j] != '.'
  {
    if t == [] then 0
    else if t[0] == '.' then 0
    else 1 + DotIndex(t[1..])
  }

  /** An unsigned decimal literal: digits, optionally a '.' and more digits,
      at least one digit in all. None stands for NaN. */
  function UnsignedDecimal(t: string): (r: Option<real>)
    ensures r.Some? ==> r.value >= 0.0
  {
    var i := DotIndex(t);
    var ip := t[..i];
    var fp := if i < |t| then t[i + 1..] else "";
    if AllDigits(ip) && AllDigits(fp) && |ip| + |fp| > 0 then Some(PointValue(ip, fp)) else None
  }

  /** A character that is neither a digit nor a point spoils a literal. */
  lemma UnsignedDecimalStray(u: string, p: int)
    requires 0 <= p < |u| && !IsDigit(u[p]) && u[p] != '.'
    ensures UnsignedDecimal(u) == None
  {
    var i := DotIndex(u);
    if p < i {
      assert u[..i][p] == u[p];
    } else {
      assert u[i + 1..][p - i - 1] == u[p];
    }
  }

  /** A second point spoils a literal. */
  lemma UnsignedDecimalTwoPoints(u: string, p: int, q: int)
    requires 0 <= p < q < |u| && u[p] == '.' && u[q] == '.'
    ensures UnsignedDecimal(u) == None
  {
    var i := DotIndex(u);
    assert i <= p;
    assert u[i + 1..][q - i - 1] == u[q];
  }

  /** The value of the literal `ip.fp`. */
  function PointValue(ip: string, fp: string): (x: real)
    requires AllDigits(ip) && AllDigits(fp)
    ensures x >= 0.0
  {
    ScaledNonNegative(DigitsValue(fp), |fp|);
    DigitsValue(ip) as real + Scaled(DigitsValue(fp), |fp|)
  }

  /** Number(s) for a string: surrounding white space is ignored, the empty
      string is 0, otherwise an optionally signed decimal literal. None
      stands for NaN. Exponents, hexadecimal, octal and binary literals and
      "Infinity" are not modelled (they read as NaN here). */
  function StringToNumber(s: string): (r: Option<real>)
    ensures Trim(s) == "" ==> r == Some(0.0)
  {
    var t := Trim(s);
    if t == "" then Some(0.0)
    else if t[0] == '-' then
      match UnsignedDecimal(t[1..])
      case Some(x) => Some(-x)
      case None => None
    else if t[0] == '+' then UnsignedDecimal(t[1..])
    else UnsignedDecimal(t)
  }

  /** Number() of a text with two points, and no white space at its ends, is
      NaN. */
  lemma TwoPointsNaN(t: string, p: int, q: int)
    requires 0 <= p < q < |t| && t[p] == '.' && t[q] == '.'
    requires !IsJsSpace(t[0]) && !IsJsSpace(t[|t| - 1])
    ensures StringToNumber(t) == None
  {
    TrimUnchanged(t);
    if t[0] == '-' || t[0] == '+' {
      UnsignedDecimalTwoPoints(t[1..], p - 1, q - 1);
    } else {
      UnsignedDecimalTwoPoints(t, p, q);
    }
  }

  /** Number() of a text with a minus sign after its first character, and no
      white space at its ends, is NaN. */
  lemma InnerMinusNaN(t: string, p: int)
    requires 0 < p < |t| && t[p] == '-'
    requires !IsJsSpace(t[0]) && !IsJsSpace(t[|t| - 1])
    ensures StringToNumber(t) == None
  {
    TrimUnchanged(t);
    if t[0] == '-' || t[0] == '+' {
      UnsignedDecimalStray(t[1..], p - 1);
    } else {
      UnsignedDecimalStray(t, p);
    }
  }

  /** Only a text with a minus sign reads as a negative number. */
  lemma NegativeNeedsMinus(s: string)
    ensures StringToNumber(s).Some? && StringToNumber(s).value < 0.0 ==> '-' in s
  {
    TrimInfix(s);
  }

  /** Number(v). None stands for NaN. */
  function NumberOf(v: Value): Option<real>
  {
    match v
    case Undefined => None
    case Null => Some(0.0)
    case Bool(b) => Some(if b then 1.0 else 0.0)
    case Num(n) => Some(DecimalValue(n))
    case Str(s) => StringToNumber(s)
    case Arr(_) => StringToNumber(ToStr(v))
    case Obj => None
  }

  /** The text of a number reads back, through Number(), as that number. */
  lemma NumTextRoundTrip(d: Decimal)
    ensures StringToNumber(NumText(d)) == Some(DecimalValue(d))
  {
    DecimalTextRoundTrip(Normal(d));
  }

  lemma DecimalTextRoundTrip(n: Decimal)
    ensures StringToNumber(DecimalText(n)) == Some(Scaled(n.units, n.scale))
  {
    if n.units < 0 {
      NegativeRoundTrip(n);
    } else {
      NonNegativeRoundTrip(n);
    }
  }

  lemma NegativeRoundTrip(n: Decimal)
    requires n.units < 0
    ensures StringToNumber(DecimalText(n)) == Some(Scaled(n.units, n.scale))
  {
    var a := Magnitude(n.units);
    assert n.units == -(a as int);
    NegativeText(n);
    NegativeTextNumber(a, n.scale);
  }

  /** The text of a negative decimal reads back as that decimal. */
  lemma NegativeTextNumber(a: nat, k: nat)
    ensures StringToNumber("-" + UnsignedText(a, k)) == Some(Scaled(-(a as int), k))
  {
    UnsignedTextShape(a, k);
    UnsignedTextValue(a, k);
    ScaledNeg(a, k);
    NegativeNumber(UnsignedText(a, k), Scaled(a, k), Scaled(-(a as int), k));
  }

  lemma NonNegativeRoundTrip(n: Decimal)
    requires n.units >= 0
    ensures StringToNumber(DecimalText(n)) == Some(Scaled(n.units, n.scale))
  {
    var a := Magnitude(n.units);
    var body := UnsignedText(a, n.scale);
    assert StringToNumber(body) == Some(Scaled(a, n.scale)) by {
      UnsignedTextShape(a, n.scale);
      UnsignedTextValue(a, n.scale);
      SignlessNumber(body);
    }
    assert DecimalText(n) == body by {
      NonNegativeText(n);
    }
    assert Scaled(a, n.scale) == Scaled(n.units, n.scale) by {
      ScaledNonNegativeUnits(n.units, n.scale);
    }
  }

  /** A negative decimal is written as '-' and the text of its magnitude. */
  lemma NegativeText(n: Decimal)
    requires n.units < 0
    ensures DecimalText(n) == "-" + UnsignedText(Magnitude(n.units), n.scale)
  {
  }

  /** A non-negative decimal is written as the text of its magnitude. */
  lemma NonNegativeText(n: Decimal)
    requires n.units >= 0
    ensures DecimalText(n) == UnsignedText(Magnitude(n.units), n.scale)
  {
    var body := UnsignedText(Magnitude(n.units), n.scale);
    assert "" + body == body;
  }

  lemma ScaledNonNegativeUnits(u: int, k: nat)
    requires u >= 0
    ensures Scaled(u, k) == Scaled(Magnitude(u), k)
  {
  }

  lemma NegativeNumber(body: string, x: real, y: real)
    requires body != [] && IsDigit(body[0]) && IsDigit(body[|body| - 1])
    requires UnsignedDecimal(body) == Some(x) && y == -x
    ensures StringToNumber("-" + body) == Some(y)
  {
    var t := "-" + body;
    assert t[1..] == body && t[0] == '-' && t[|t| - 1] == body[|body| - 1];
    TrimUnchanged(t);
  }

  lemma SignlessNumber(t: string)
    requires t != [] && IsDigit(t[0]) && IsDigit(t[|t| - 1])
    ensures StringToNumber(t) == UnsignedDecimal(t)
  {
    NotSpace(t[0]);
    NotSpace(t[|t| - 1]);
    TrimUnchanged(t);
  }

  lemma UnsignedTextShape(a: nat, scale: nat)
    ensures var t := UnsignedText(a, scale); t != [] && IsDigit(t[0]) && IsDigit(t[|t| - 1])
  {
    var ip := NatText(IntPart(a, scale));
    var t := UnsignedText(a, scale);
    assert t[0] == ip[0];
    if scale > 0 {
      var fp := PadLeft(NatText(FracPart(a, scale)), scale);
      assert t == ip + "." + fp;
      assert |fp| >= scale > 0 && t[|t| - 1] == fp[|fp| - 1];
    }
  }

  /** The text of a / 10^scale parses back as that number. */
  lemma UnsignedTextValue(a: nat, scale: nat)
    ensures UnsignedDecimal(UnsignedText(a, scale)) == Some(Scaled(a, scale))
  {
    if scale == 0 {
      IntegerTextValue(a);
    } else {
      FractionTextValue(a, scale);
    }
  }

  lemma IntegerTextValue(a: nat)
    ensures UnsignedDecimal(UnsignedText(a, 0)) == Some(Scaled(a, 0))
  {
    var ip := NatText(a);
    assert UnsignedText(a, 0) == ip;
    forall j | 0 <= j < |ip| ensures ip[j] != '.' { assert IsDigit(ip[j]); }
    DotIndexNone(ip);
    assert ip[..|ip|] == ip;
  }

  lemma FractionTextValue(a: nat, scale: nat)
    requires scale > 0
    ensures UnsignedDecimal(UnsignedText(a, scale)) == Some(Scaled(a, scale))
  {
    var ip, fp := NatText(IntPart(a, scale)), PadLeft(NatText(FracPart(a, scale)), scale);
    FractionText(a, scale);
    FractionParse(ip, fp);
    FractionPointValue(a, scale);
  }

  lemma FractionPointValue(a: nat, scale: nat)
    requires scale > 0
    ensures PointValue(NatText(IntPart(a, scale)), PadLeft(NatText(FracPart(a, scale)), scale)) == Scaled(a, scale)
  {
    FracPartLength(a, scale);
    SplitValue(a, scale);
  }

  lemma FractionText(a: nat, scale: nat)
    requires scale > 0
    ensures UnsignedText(a, scale) == NatText(IntPart(a, scale)) + "." + PadLeft(NatText(FracPart(a, scale)), scale)
  {
  }

  lemma FracPartLength(a: nat, scale: nat)
    requires scale > 0
    ensures |PadLeft(NatText(FracPart(a, scale)), scale)| == scale
  {
    SplitDigits(a, scale);
    NatTextLength(FracPart(a, scale), scale);
  }

  /** Integer part plus fraction is the number. */
  lemma SplitValue(a: nat, k: nat)
    ensures IntPart(a, k) as real + Scaled(FracPart(a, k), k) == Scaled(a, k)
  {
    SplitDigits(a, k);
    RealSplit(IntPart(a, k), FracPart(a, k), k);
  }

  /** Digits, a '.', digits: the integer part plus the fraction. */
  lemma FractionParse(ip: string, fp: string)
    requires AllDigits(ip) && AllDigits(fp) && |ip| > 0
    ensures UnsignedDecimal(ip + "." + fp) == Some(PointValue(ip, fp))
  {
    var t := ip + "." + fp;
    DotIndexAfter(ip, fp);
    var i := DotIndex(t);
    assert i == |ip| < |t|;
    assert t[..i] == ip;
    assert t[i + 1..] == fp;
    assert AllDigits(t[..i]) && AllDigits(t[i + 1..]);
  }

  lemma RealSplit(q: nat, r: nat, k: nat)
    ensures q as real + Scaled(r, k) == Scaled(q * Pow10(k) + r, k)
  {
    ScaledAdd(q * Pow10(k), r, k);
    ScaledPow(q, k);
  }

  lemma {:induction false} DotIndexNone(t: string)
    requires forall j :: 0 <= j < |t| ==> t[j] != '.'
    ensures DotIndex(t) == |t|
  {
    if t != [] {
      DotIndexNone(t[1..]);
    }
  }

  lemma DotIndexAfter(ip: string, fp: string)
    requires AllDigits(ip)
    ensures DotIndex(ip + "." + fp) == |ip|
  {
    var t := ip + "." + fp;
    var i := DotIndex(t);
    assert forall j :: 0 <= j < |ip| ==> t[j] == ip[j];
    assert t[|ip|] == '.';
  }
}

=== FILE: occupation.dfy ===
/** The occupation gauges: nights booked in a period divided by the number of
    days of the period, per year. The current date, which the source reads
    from the clock, is the parameter `today`. */
module Occupation {
  import opened Seqs
  import opened Calendar
  import opened Records
  import opened Periods
  import opened Stats

  /** The length of the period computeOccupation divides by: daysInMonth for
      a month; for a whole year, the days from the first of January to today
      inclusive when it is the current year, else 366 or 365 by isLeapYear. */
  function DaysInPeriod(year: int, month: int, today: Date): (n: int)
    requires Valid(today)
    ensures 1 <= n <= 366
    ensures month != 0 ==> 28 <= n <= 31
    ensures month == 0 && year == today.y ==> n <= YearLength(year)
    ensures month == 0 && year == today.y ==> n == DayNumber(today) - DayNumber(Date(year, 1, 1)) + 1
    ensures month == 0 && year != today.y ==> (n == 366 <==> IsLeapYear(year)) && (n == 365 <==> !IsLeapYear(year))
  {
    if month != 0 then DaysInMonth(month, year)
    else if year == today.y then
      YearLengthLeap(year);
      DayOfYear(today)
    else if IsLeapYear(year) then 366
    else 365
  }

  /** A month of the gauge lasts as long as that month of the calendar. */
  lemma DaysInPeriodMonth(year: int, month: int, today: Date)
    requires Valid(today) && 1 <= month <= 12
    ensures DaysInPeriod(year, month, today) == MonthLength(FullYear(year), month)
  {
    DaysInMonthLength(month, year);
  }

  /** On the first of January of the current year one day has elapsed, on
      the last day of the year all of them. */
  lemma DaysInPeriodToday(today: Date)
    requires Valid(today)
    ensures today.m == 1 && today.d == 1 ==> DaysInPeriod(today.y, 0, today) == 1
    ensures today.m == 12 && today.d == 31 ==> DaysInPeriod(today.y, 0, today) == YearLength(today.y)
  {
  }

  /** The twelve monthly periods of a past or future year add up to its
      yearly period (outside the years 0..99, where daysInMonth looks at the
      year 1900 + year and isLeapYear does not). */
  lemma MonthsMakePeriod(year: int, today: Date)
    requires Valid(today) && year != today.y && (year < 0 || year > 99)
    ensures MonthDays(year, 13) == DaysInPeriod(year, 0, today)
  {
    MonthsMakeYear(year);
  }

  /** computeOccupation: the nights of the bookings filterDataByPeriod keeps,
      divided by the days of the period (`daysInPeriod ? … : 0`, the period
      never being empty). */
  function ComputeOccupation(entries: seq<Entry>, year: int, month: int, today: Date): (r: real)
    requires Valid(today)
    ensures Times(r, DaysInPeriod(year, month, today)) == Sum(Nights, FilterDataByPeriod(entries, year, month))
  {
    var nights := Sum(Nights, FilterDataByPeriod(entries, year, month));
    TimesMean(nights, DaysInPeriod(year, month, today));
    Mean(nights, DaysInPeriod(year, month, today) as real)
  }

  /** `x` added `n` times, that is `x * n`; written as a sum so that the
      statements about occupations and day counts stay linear. */
  function Times(x: real, n: nat): real
  {
    if n == 0 then 0.0 else Times(x, n - 1) + x
  }

  lemma {:induction false} TimesIsProduct(x: real, n: nat)
    ensures Times(x, n) == x * n as real
  {
    if n > 0 {
      TimesIsProduct(x, n - 1);
    }
  }

  /** A mean over a positive count, counted that many times, is the total. */
  lemma TimesMean(total: real, n: nat)
    requires n >= 1
    ensures Times(Mean(total, n as real), n) == total
  {
    TimesIsProduct(Mean(total, n as real), n);
  }

  /** With no negative night count the occupation is not negative. */
  lemma OccupationNonNegative(entries: seq<Entry>, year: int, month: int, today: Date)
    requires Valid(today)
    requires forall i :: 0 <= i < |entries| ==> entries[i].nuits >= 0.0
    ensures ComputeOccupation(entries, year, month, today) >= 0.0
  {
    var f := FilterDataByPeriod(entries, year, month);
    FilterDataByPeriodMembers(entries, year, month);
    forall i | 0 <= i < |f| ensures Nights(f[i]) >= 0.0 {
      assert f[i] in multiset(f);
    }
    SumNonNegative(Nights, f);
    MeanNonNegative(Sum(Nights, f), DaysInPeriod(year, month, today));
  }

  lemma MeanNonNegative(total: real, count: int)
    requires total >= 0.0 && count >= 1
    ensures Mean(total, count as real) >= 0.0
  {
  }

  datatype YearOccupation = YearOccupation(year: int, occupation: real)

  /** getOccupationPerYear: one gauge per year, in the order given. */
  function GetOccupationPerYear(entries: seq<Entry>, allYears: seq<int>, selectedMonth: int, today: Date): (r: seq<YearOccupation>)
    requires Valid(today)
    ensures |r| == |allYears|
    ensures forall i :: 0 <= i < |r| ==> r[i].year == allYears[i]
  {
    seq(|allYears|, i requires 0 <= i < |allYears| =>
      YearOccupation(allYears[i], ComputeOccupation(entries, allYears[i], selectedMonth, today)))
  }

  /** Each year's gauge times the days of its period is the nights booked in
      that year (or that month of it). */
  lemma OccupationPerYearNights(entries: seq<Entry>, allYears: seq<int>, selectedMonth: int, today: Date)
    requires Valid(today)
    ensures var r := GetOccupationPerYear(entries, allYears, selectedMonth, today);
      forall i :: 0 <= i < |r| ==>
        Times(r[i].occupation, DaysInPeriod(allYears[i], selectedMonth, today))
          == Sum(Nights, FilterDataByPeriod(entries, allYears[i], selectedMonth))
  {
    var r := GetOccupationPerYear(entries, allYears, selectedMonth, today);
    forall i | 0 <= i < |r|
      ensures Times(r[i].occupation, DaysInPeriod(allYears[i], selectedMonth, today))
        == Sum(Nights, FilterDataByPeriod(entries, allYears[i], selectedMonth))
    {
    }
  }

  /** The occupations of the months 1..k-1 of a year, each weighted by the
      length of its month. */
  function WeightedMonths(entries: seq<Entry>, year: int, today: Date, k: int): real
    requires Valid(today) && 1 <= k <= 13
  {
    if k == 1 then 0.0
    else
      WeightedMonths(entries, year, today, k - 1)
        + Times(ComputeOccupation(entries, year, k - 1, today), DaysInPeriod(year, k - 1, today))
  }

  lemma {:induction false} WeightedMonthsNights(entries: seq<Entry>, year: int, today: Date, k: int)
    requires Valid(today) && 1 <= k <= 13
    ensures WeightedMonths(entries, year, today, k) == MonthsSum(NotHomeExchange, Nights, entries, year, k)
  {
    if k > 1 {
      var m := k - 1;
      WeightedMonthsNights(entries, year, today, m);
      assert Times(ComputeOccupation(entries, year, m, today), DaysInPeriod(year, m, today))
        == MatchSum(NotHomeExchange, Nights, entries, year, m)
      by {
        SumFiltered(Nights, entries, year, m);
      }
    }
  }

  /** The yearly gauge of a past or future year is the mean of its monthly
      gauges weighted by the month lengths: the twelve months' nights make
      the year's nights. */
  lemma YearOccupationFromMonths(entries: seq<Entry>, year: int, today: Date)
    requires Valid(today) && AllDated(entries) && year != today.y
    ensures WeightedMonths(entries, year, today, 13)
      == Times(ComputeOccupation(entries, year, 0, today), DaysInPeriod(year, 0, today))
  {
    WeightedMonthsNights(entries, year, today, 13);
    MonthsMakeYearSum(NotHomeExchange, Nights, entries, year);
    SumFiltered(Nights, entries, year, 0);
  }
}

=== FILE: periods.dfy ===
/** Selecting the bookings of a period: a year, or one month of a year, by
    start date; home exchanges are set aside. Also the list of years that
    occur in the data. */
module Periods {
  import opened Seqs
  import opened JsStrings
  import opened Calendar
  import opened Records

  /* --------------------------------------------------------- isHomeExchange */

  /** A booking paid by home exchange: the trimmed, lower-cased payment text
      is "homeexchange" (an empty payment is falsy and never is). */
  predicate IsHomeExchange(e: Entry)
    ensures e.paiement == "" ==> !IsHomeExchange(e)
    ensures IsHomeExchange(e) ==> |e.paiement| >= 12
  {
    e.paiement != "" && ToLowerCase(Trim(e.paiement)) == "homeexchange"
  }

  /** Case and surrounding white space do not matter: a payment and its
      trimmed lower-case form are classified alike. */
  lemma HomeExchangeCaseless(e: Entry)
    ensures IsHomeExchange(e) <==> IsHomeExchange(e.(paiement := ToLowerCase(Trim(e.paiement))))
  {
    var t := Trim(e.paiement);
    var l := ToLowerCase(t);
    LowerKeepsTrim(t);
    ToLowerCaseIdempotent(t);
    assert ToLowerCase(Trim(l)) == l;
    if e.paiement == "" {
      assert t == "" && l == "";
    }
  }

  /** Lower-casing never turns a character into white space or back, so a
      trimmed string stays trimmed. */
  lemma LowerKeepsTrim(t: string)
    requires Trim(t) == t
    ensures Trim(ToLowerCase(t)) == ToLowerCase(t)
  {
    var l := ToLowerCase(t);
    if t != [] {
      assert !IsJsSpace(t[0]) && !IsJsSpace(t[|t| - 1]);
      assert !IsJsSpace(l[0]) && !IsJsSpace(l[|l| - 1]);
    }
    TrimUnchanged(l);
  }

  /* ------------------------------------------------------------- entryMatch */

  /** A start date in `year`, and in `month` unless `month` is 0 (every falsy
      month means the whole year). */
  predicate InPeriod(date: Date, year: int, month: int)
  {
    date.y == year && (month == 0 || date.m == month)
  }

  /** entryMatch: the booking has a start date, and it lies in the period. */
  predicate EntryMatch(e: Entry, year: int, month: int)
    ensures EntryMatch(e, year, month) ==> e.debut.Some? && e.debut.value.y == year
    ensures e.debut.Some? && e.debut.value.y == year && month == 0 ==> EntryMatch(e, year, month)
    ensures EntryMatch(e, year, month) && month != 0 ==> e.debut.value.m == month
  {
    e.debut.Some? && InPeriod(e.debut.value, year, month)
  }

  /** A booking with a valid start date matches its year in exactly one month. */
  lemma EntryMatchOneMonth(e: Entry, year: int, m: int)
    requires e.debut.Some? && Valid(e.debut.value)
    requires 1 <= m <= 12
    ensures EntryMatch(e, year, m) <==> EntryMatch(e, year, 0) && e.debut.value.m == m
  {
  }

  /* ----------------------------------------------------- filterDataByPeriod */

  /** filterDataByPeriod: the bookings of `arr`, in order, that have a start
      date in the period and are not home exchanges. */
  function FilterDataByPeriod(arr: seq<Entry>, year: int, month: int): (r: seq<Entry>)
    ensures |r| <= |arr|
    ensures forall e :: e in r ==> EntryMatch(e, year, month) && !IsHomeExchange(e)
  {
    if arr == [] then []
    else
      var e := arr[|arr| - 1];
      FilterDataByPeriod(arr[..|arr| - 1], year, month) + (if Selected(e, year, month) then [e] else [])
  }

  /** The test of the filter callback, branch by branch. */
  predicate Selected(e: Entry, year: int, month: int)
    ensures Selected(e, year, month) <==> EntryMatch(e, year, month) && !IsHomeExchange(e)
  {
    if e.debut.None? then false
    else if IsHomeExchange(e) then false
    else if month != 0 then e.debut.value.y == year && e.debut.value.m == month
    else e.debut.value.y == year
  }

  /** A booking is selected exactly when it is in `arr`, matches the period
      and is not a home exchange; each keeps its multiplicity. */
  lemma {:induction false} FilterDataByPeriodMembers(arr: seq<Entry>, year: int, month: int)
    ensures forall e ::
              multiset(FilterDataByPeriod(arr, year, month))[e] ==
              (if EntryMatch(e, year, month) && !IsHomeExchange(e) then multiset(arr)[e] else 0)
  {
    if arr != [] {
      var init, x := arr[..|arr| - 1], arr[|arr| - 1];
      FilterDataByPeriodMembers(init, year, month);
      SplitLast(arr);
      assert multiset(arr) == multiset(init) + multiset{x};
      var r := FilterDataByPeriod(init, year, month);
      var added := if Selected(x, year, month) then [x] else [];
      assert FilterDataByPeriod(arr, year, month) == r + added;
      assert multiset(FilterDataByPeriod(arr, year, month)) == multiset(r) + multiset(added);
    }
  }

  /** The selection keeps the order of `arr`. */
  lemma {:induction false} FilterDataByPeriodSubseq(arr: seq<Entry>, year: int, month: int)
    ensures IsSubseq(FilterDataByPeriod(arr, year, month), arr)
  {
    if arr != [] {
      var init, e := arr[..|arr| - 1], arr[|arr| - 1];
      var r := FilterDataByPeriod(init, year, month);
      FilterDataByPeriodSubseq(init, year, month);
      SplitLast(arr);
      if Selected(e, year, month) {
        assert FilterDataByPeriod(arr, year, month) == r + [e];
        SubseqSnoc(r, init, e);
      } else {
        assert FilterDataByPeriod(arr, year, month) == r + [];
        assert r + [] == r;
        SubseqExtend(r, init, e);
      }
    }
  }

  /** Filtering distributes over concatenation. */
  lemma {:induction false} FilterDataByPeriodAppend(a: seq<Entry>, b: seq<Entry>, year: int, month: int)
    ensures FilterDataByPeriod(a + b, year, month) ==
      FilterDataByPeriod(a, year, month) + FilterDataByPeriod(b, year, month)
    decreases |b|
  {
    if b == [] {
      assert a + b == a;
    } else {
      var b', e := b[..|b| - 1], b[|b| - 1];
      assert (a + b)[..|a + b| - 1] == a + b' && (a + b)[|a + b| - 1] == e;
      FilterDataByPeriodAppend(a, b', year, month);
    }
  }

  /** Selecting a month of the year-selection is selecting that month. */
  lemma {:induction false} FilterMonthOfYear(arr: seq<Entry>, year: int, month: int)
    ensures FilterDataByPeriod(FilterDataByPeriod(arr, year, 0), year, month) ==
      FilterDataByPeriod(arr, year, month)
  {
    if arr != [] {
      var init, e := arr[..|arr| - 1], arr[|arr| - 1];
      FilterMonthOfYear(init, year, month);
      var y := FilterDataByPeriod(init, year, 0);
      var m := FilterDataByPeriod(init, year, month);
      assert FilterDataByPeriod(y, year, month) == m;
      if Selected(e, year, 0) {
        assert FilterDataByPeriod(arr, year, 0) == y + [e];
        FilterDataByPeriodAppend(y, [e], year, month);
        assert [e][..0] == [];
        assert FilterDataByPeriod([e], year, month) == if Selected(e, year, month) then [e] else [];
      } else {
        assert !Selected(e, year, month);
        assert FilterDataByPeriod(arr, year, 0) == y + [] == y;
        assert FilterDataByPeriod(arr, year, month) == m + [] == m;
      }
    }
  }

  /** Adding one element at the end of the larger sequence keeps a subsequence. */
  lemma {:induction false} SubseqExtend<T>(a: seq<T>, b: seq<T>, x: T)
    requires IsSubseq(a, b)
    ensures IsSubseq(a, b + [x])
    decreases |b|
  {
    if a != [] {
      assert (b + [x])[1..] == b[1..] + [x];
      if a[0] == b[0] && IsSubseq(a[1..], b[1..]) {
        SubseqExtend(a[1..], b[1..], x);
      } else {
        SubseqExtend(a, b[1..], x);
      }
    }
  }

  /** Adding the same element at the end of both keeps a subsequence. */
  lemma {:induction false} SubseqSnoc<T>(a: seq<T>, b: seq<T>, x: T)
    requires IsSubseq(a, b)
    ensures IsSubseq(a + [x], b + [x])
    decreases |b|
  {
    if a == [] {
      SubseqSingleton(b, x);
      assert a + [x] == [x];
    } else {
      assert (a + [x])[0] == a[0] && (a + [x])[1..] == a[1..] + [x];
      assert (b + [x])[0] == b[0] && (b + [x])[1..] == b[1..] + [x];
      if a[0] == b[0] && IsSubseq(a[1..], b[1..]) {
        SubseqSnoc(a[1..], b[1..], x);
      } else {
        SubseqSnoc(a, b[1..], x);
      }
    }
  }

  lemma {:induction false} SubseqSingleton<T>(b: seq<T>, x: T)
    ensures IsSubseq([x], b + [x])
    decreases |b|
  {
    if b != [] {
      assert (b + [x])[1..] == b[1..] + [x];
      SubseqSingleton(b[1..], x);
    }
  }

  /* ------------------------------------------------------ sums over a period */

  /** The sum of `w` over the bookings of `s` that match the period and pass
      `keep`. Every per-period figure of the dashboard is one of these. */
  function MatchSum(keep: Entry -> bool, w: Entry -> real, s: seq<Entry>, year: int, month: int): real
  {
    if s == [] then 0.0
    else
      var e := s[|s| - 1];
      MatchSum(keep, w, s[..|s| - 1], year, month) + (if EntryMatch(e, year, month) && keep(e) then w(e) else 0.0)
  }

  /** Not a home exchange: the booking filterDataByPeriod keeps. */
  predicate NotHomeExchange(e: Entry)
  {
    !IsHomeExchange(e)
  }

  /** Summing over filterDataByPeriod's selection is a MatchSum. */
  lemma {:induction false} SumFiltered(w: Entry -> real, s: seq<Entry>, year: int, month: int)
    ensures Sum(w, FilterDataByPeriod(s, year, month)) == MatchSum(NotHomeExchange, w, s, year, month)
  {
    if s != [] {
      var init, e := s[..|s| - 1], s[|s| - 1];
      SumFiltered(w, init, year, month);
      SumFilteredStep(w, s, year, month);
      assert MatchSum(NotHomeExchange, w, s, year, month) ==
        MatchSum(NotHomeExchange, w, init, year, month) + (if Selected(e, year, month) then w(e) else 0.0)
      by {
        assert NotHomeExchange(e) == !IsHomeExchange(e);
      }
    }
  }

  /** One more booking adds its weight to the sum over the selection when it
      is selected. */
  lemma SumFilteredStep(w: Entry -> real, s: seq<Entry>, year: int, month: int)
    requires s != []
    ensures var e := s[|s| - 1];
      Sum(w, FilterDataByPeriod(s, year, month)) ==
      Sum(w, FilterDataByPeriod(s[..|s| - 1], year, month)) + (if Selected(e, year, month) then w(e) else 0.0)
  {
    var e := s[|s| - 1];
    var r := FilterDataByPeriod(s[..|s| - 1], year, month);
    if Selected(e, year, month) {
      assert FilterDataByPeriod(s, year, month) == r + [e];
      assert (r + [e])[..|r|] == r;
    } else {
      assert FilterDataByPeriod(s, year, month) == r + [];
      assert r + [] == r;
    }
  }

  /** One more booking adds its weight when it matches and passes `keep`. */
  lemma MatchSumPrefix(keep: Entry -> bool, w: Entry -> real, s: seq<Entry>, i: int, year: int, month: int)
    requires 0 <= i < |s|
    ensures MatchSum(keep, w, s[..i + 1], year, month) ==
      MatchSum(keep, w, s[..i], year, month) + (if EntryMatch(s[i], year, month) && keep(s[i]) then w(s[i]) else 0.0)
  {
    assert s[..i + 1][..i] == s[..i];
  }

  /** With no negative weight, a narrower test sums to no more. */
  lemma {:induction false} MatchSumWithin(keep: Entry -> bool, wider: Entry -> bool, w: Entry -> real, s: seq<Entry>, year: int, month: int)
    requires forall e :: keep(e) ==> wider(e)
    requires forall i :: 0 <= i < |s| ==> w(s[i]) >= 0.0
    ensures MatchSum(keep, w, s, year, month) <= MatchSum(wider, w, s, year, month)
  {
    if s != [] {
      var init := s[..|s| - 1];
      assert forall i :: 0 <= i < |init| ==> init[i] == s[i];
      MatchSumWithin(keep, wider, w, init, year, month);
    }
  }

  /** The MatchSums of the months 1..k-1 of a year. */
  function MonthsSum(keep: Entry -> bool, w: Entry -> real, s: seq<Entry>, year: int, k: int): real
    requires 1 <= k <= 13
  {
    if k == 1 then 0.0 else MonthsSum(keep, w, s, year, k - 1) + MatchSum(keep, w, s, year, k - 1)
  }

  predicate AllDated(s: seq<Entry>)
  {
    forall i :: 0 <= i < |s| ==> s[i].debut.Some? && Valid(s[i].debut.value)
  }

  /** The twelve monthly figures of a year add up to the yearly figure, for
      bookings whose start dates are valid. */
  lemma {:induction false} MonthsMakeYearSum(keep: Entry -> bool, w: Entry -> real, s: seq<Entry>, year: int)
    requires AllDated(s)
    ensures MonthsSum(keep, w, s, year, 13) == MatchSum(keep, w, s, year, 0)
  {
    if s != [] {
      var init, e := s[..|s| - 1], s[|s| - 1];
      assert init + [e] == s;
      assert AllDated(init) by {
        forall i | 0 <= i < |init| ensures init[i].debut.Some? && Valid(init[i].debut.value) {
          assert init[i] == s[i];
        }
      }
      MonthsMakeYearSum(keep, w, init, year);
      MonthsSumSnoc(keep, w, init, e, year, 13);
      assert e.debut.Some? && Valid(e.debut.value);
      OneMonthSum(keep, w, e, year, 13);
      assert MonthsSum(keep, w, s, year, 13) == MonthsSum(keep, w, init, year, 13) + MonthsOfOne(keep, w, e, year, 13);
      assert MatchSum(keep, w, s, year, 0) == MatchSum(keep, w, init, year, 0) + (if EntryMatch(e, year, 0) && keep(e) then w(e) else 0.0);
    } else {
      MonthsSumEmpty(keep, w, s, year, 13);
    }
  }

  lemma {:induction false} MonthsSumEmpty(keep: Entry -> bool, w: Entry -> real, s: seq<Entry>, year: int, k: int)
    requires s == [] && 1 <= k <= 13
    ensures MonthsSum(keep, w, s, year, k) == 0.0
  {
    if k > 1 {
      MonthsSumEmpty(keep, w, s, year, k - 1);
    }
  }

  /** The contribution of one booking to the months 1..k-1. */
  function MonthsOfOne(keep: Entry -> bool, w: Entry -> real, e: Entry, year: int, k: int): real
    requires 1 <= k <= 13
  {
    if k == 1 then 0.0
    else MonthsOfOne(keep, w, e, year, k - 1) + (if EntryMatch(e, year, k - 1) && keep(e) then w(e) else 0.0)
  }

  lemma {:induction false} MonthsSumSnoc(keep: Entry -> bool, w: Entry -> real, s: seq<Entry>, e: Entry, year: int, k: int)
    requires 1 <= k <= 13
    ensures MonthsSum(keep, w, s + [e], year, k) == MonthsSum(keep, w, s, year, k) + MonthsOfOne(keep, w, e, year, k)
  {
    if k > 1 {
      MonthsSumSnoc(keep, w, s, e, year, k - 1);
      assert (s + [e])[..|s|] == s;
    }
  }

  /** A dated booking counts in exactly the month of its start date. */
  lemma {:induction false} OneMonthSum(keep: Entry -> bool, w: Entry -> real, e: Entry, year: int, k: int)
    requires e.debut.Some? && Valid(e.debut.value)
    requires 1 <= k <= 13
    ensures MonthsOfOne(keep, w, e, year, k) ==
      if EntryMatch(e, year, 0) && keep(e) && e.debut.value.m < k then w(e) else 0.0
  {
    if k > 1 {
      OneMonthSum(keep, w, e, year, k - 1);
    }
  }

  /* ------------------------------------------------------ getAvailableYears */

  /** The years of the start dates found in the data. */
  function YearsOf(gites: Dataset): set<int>
  {
    set k, e | k in gites && e in gites[k] && e.debut.Some? :: e.debut.value.y
  }

  /** getAvailableYears: every year that occurs, each once, most recent first. */
  method GetAvailableYears(gites: Dataset) returns (years: seq<int>)
    ensures forall i, j :: 0 <= i < j < |years| ==> years[i] > years[j]
    ensures forall y :: y in years <==> y in YearsOf(gites)
  {
    var found: set<int> := {};
    var todo := gites.Keys;
    while todo != {}
      invariant todo <= gites.Keys
      invariant found == set k, e | k in gites && k !in todo && e in gites[k] && e.debut.Some? :: e.debut.value.y
      decreases todo
    {
      var k := Element(todo);
      var arr := gites[k];
      var i := 0;
      ghost var before := found;
      while i < |arr|
        invariant 0 <= i <= |arr|
        invariant found == before + set e | e in arr[..i] && e.debut.Some? :: e.debut.value.y
      {
        if arr[i].debut.Some? {
          found := found + {arr[i].debut.value.y};
        }
        assert arr[..i + 1] == arr[..i] + [arr[i]];
        i := i + 1;
      }
      assert arr[..i] == arr;
      todo := todo - {k};
    }
    years := SortDescending(found);
  }

  /** `Array.from(set).sort((a, b) => b - a)`: the elements of a finite set of
      integers in decreasing order. */
  method SortDescending(s: set<int>) returns (r: seq<int>)
    ensures forall i, j :: 0 <= i < j < |r| ==> r[i] > r[j]
    ensures forall y :: y in r <==> y in s
  {
    r := [];
    var rest := s;
    while rest != {}
      invariant rest <= s
      invariant forall y :: y in r <==> y in s && y !in rest
      invariant forall i, j :: 0 <= i < j < |r| ==> r[i] > r[j]
      invariant forall i, y :: 0 <= i < |r| && y in rest ==> r[i] > y
      decreases rest
    {
      var m := Largest(rest);
      r := r + [m];
      rest := rest - {m};
    }
  }

  method Largest(s: set<int>) returns (m: int)
    requires s != {}
    ensures m in s && forall y :: y in s ==> y <= m
  {
    m := Element(s);
    var rest := s - {m};
    while rest != {}
      invariant rest <= s && m in s
      invariant forall y :: y in s && y !in rest ==> y <= m
      decreases rest
    {
      var y := Element(rest);
      if y > m {
        m := y;
      }
      rest := rest - {y};
    }
  }

  /** Some element of a non-empty set. */
  method Element<T>(s: set<T>) returns (x: T)
    requires s != {}
    ensures x in s
  {
    x :| x in s;
  }
}

=== FILE: records.dfy ===
/** Reading the spreadsheet feed: each property (gîte) maps to a list of rows;
    the rows that are bookings become entries with typed fields. */
module Records {
  import opened Seqs
  import opened JsStrings
  import opened JsValues
  import opened Calendar

  /** What parseDate gives for a cell: null for a falsy cell, a date for a
      DD/MM/YYYY string, and for any other string a Date object whose value
      this model does not interpret. */
  datatype DateCell = NoDate | Day(date: Date) | Unparsed(text: string)

  /** A booking, as parseGitesData builds it. */
  datatype Entry = Entry(
    nom: Value,
    debut: Option<Date>,
    fin: DateCell,
    mois: Option<real>,
    nuits: real,
    adultes: real,
    prixNuit: real,
    revenus: real,
    paiement: string,
    taxeSejour: real,
    nuitsTaxe: real)

  /** The parsed feed: property name to its bookings. */
  type Dataset = map<string, seq<Entry>>

  /* ---------------------------------------------------------------- safeNum */

  /** The characters the number cleaning keeps: [0-9.-]. */
  predicate IsNumberChar(c: char)
  {
    IsDigit(c) || c == '.' || c == '-'
  }

  /** `s.replace(",", ".")`: only the first comma becomes a dot. */
  function ReplaceFirstComma(s: string): (r: string)
    ensures |r| == |s|
    ensures ',' !in s ==> r == s
    ensures forall i :: 0 <= i < |s| && s[i] != ',' ==> r[i] == s[i]
    ensures forall c :: c in r && c != '.' ==> c in s
    ensures forall c :: c != ',' && c != '.' ==> multiset(r)[c] == multiset(s)[c]
  {
    if s == [] then []
    else
      assert s == [s[0]] + s[1..];
      if s[0] == ',' then "." + s[1..]
      else [s[0]] + ReplaceFirstComma(s[1..])
  }

  /** The decimal comma of `ip,fp` becomes a point. */
  lemma {:induction false} ReplaceDecimalComma(ip: string, fp: string)
    requires ',' !in ip
    ensures ReplaceFirstComma(ip + "," + fp) == ip + "." + fp
  {
    if ip == [] {
      assert ip + "," + fp == "," + fp;
      assert ("," + fp)[1..] == fp;
    } else {
      assert (ip + "," + fp)[1..] == ip[1..] + "," + fp;
      ReplaceDecimalComma(ip[1..], fp);
      assert ip + "." + fp == [ip[0]] + (ip[1..] + "." + fp);
    }
  }

  /** When `s` has a comma, the result is `s` with the comma at the first
      position `k` holding one replaced by a point. */
  lemma FirstCommaReplaced(s: string)
    requires ',' in s
    ensures exists k ::
      && 0 <= k < |s|
      && s[k] == ','
      && ',' !in s[..k]
      && ReplaceFirstComma(s) == s[..k] + "." + s[k + 1..]
  {
    var k := FirstComma(s);
    var ip, fp := s[..k], s[k + 1..];
    assert s == ip + "," + fp by {
      SplitAt(s, k);
    }
    ReplaceDecimalComma(ip, fp);
  }

  /** The position of the first comma of `s`. */
  function FirstComma(s: string): (k: nat)
    requires ',' in s
    ensures k < |s| && s[k] == ',' && ',' !in s[..k]
  {
    if s[0] == ',' then 0
    else
      assert ',' in s[1..] by {
        var j :| 0 <= j < |s| && s[j] == ',';
        assert s[1..][j - 1] == ',';
      }
      var k := FirstComma(s[1..]);
      assert s[..k + 1] == [s[0]] + s[1..][..k];
      k + 1
  }

  /** The string safeNum hands to Number(): the first comma turned into a
      point, then every character other than a digit, '.' or '-' removed,
      the rest kept in order. */
  function CleanNumber(s: string): (r: string)
    ensures forall i :: 0 <= i < |r| ==> IsNumberChar(r[i])
    ensures IsSubseq(r, ReplaceFirstComma(s))
    ensures forall c :: multiset(r)[c] == if IsNumberChar(c) then multiset(ReplaceFirstComma(s))[c] else 0
    ensures forall c :: c != '.' ==> multiset(r)[c] == if IsNumberChar(c) then multiset(s)[c] else 0
  {
    var u := ReplaceFirstComma(s);
    var t := Filter(IsNumberChar, u);
    assert forall i :: 0 <= i < |t| ==> t[i] in t;
    FilterIsSubseq(IsNumberChar, u);
    t
  }

  /** safeNum: null and undefined are 0, a number is itself, a string is read
      after cleaning (NaN becoming 0), anything else is 0. */
  function SafeNum(v: Value): (r: real)
    ensures v.Num? ==> r == DecimalValue(v.n)
    ensures !v.Num? && !v.Str? ==> r == 0.0
  {
    match v
    case Num(n) => DecimalValue(n)
    case Str(s) =>
      (match StringToNumber(CleanNumber(s))
       case Some(x) => x
       case None => 0.0)
    case _ => 0.0
  }

  /** The `isNaN(num) ? 0 : num` guard: a string whose cleaned text Number()
      cannot read gives 0. */
  lemma SafeNumUnreadable(s: string)
    requires StringToNumber(CleanNumber(s)).None?
    ensures SafeNum(Str(s)) == 0.0
  {
  }

  /** A cleaned text with two points, as from "1.2.3" or "1,2.3", gives 0. */
  lemma SafeNumTwoPoints(s: string, p: int, q: int)
    requires 0 <= p < q < |CleanNumber(s)|
    requires CleanNumber(s)[p] == '.' && CleanNumber(s)[q] == '.'
    ensures SafeNum(Str(s)) == 0.0
  {
    var t := CleanNumber(s);
    assert StringToNumber(t) == None by {
      NotSpace(t[0]);
      NotSpace(t[|t| - 1]);
      TwoPointsNaN(t, p, q);
    }
    SafeNumUnreadable(s);
  }

  /** A cleaned text with a minus sign after its first character, as from
      "12,5-" or "10 - 2", gives 0. */
  lemma SafeNumInnerMinus(s: string, p: int)
    requires 0 < p < |CleanNumber(s)| && CleanNumber(s)[p] == '-'
    ensures SafeNum(Str(s)) == 0.0
  {
    var t := CleanNumber(s);
    assert StringToNumber(t) == None by {
      NotSpace(t[0]);
      NotSpace(t[|t| - 1]);
      InnerMinusNaN(t, p);
    }
    SafeNumUnreadable(s);
  }

  /** A text with no minus sign never gives a negative number. */
  lemma SafeNumNonNegative(s: string)
    requires '-' !in s
    ensures SafeNum(Str(s)) >= 0.0
  {
    CleanNoMinus(s);
    UnsignedNumber(CleanNumber(s));
  }

  /** A number and its text give the same safeNum, for the numbers that
      toString writes without an exponent. */
  lemma SafeNumText(d: Decimal)
    requires PlainRange(d)
    ensures SafeNum(Str(NumText(d))) == SafeNum(Num(d))
  {
    DecimalTextChars(Normal(d));
    NumTextRoundTrip(d);
    SafeNumOfNumeral(NumText(d), DecimalValue(d));
  }

  /** A string made of digits, '.' and '-' only is read as Number() reads it. */
  lemma SafeNumOfNumeral(t: string, x: real)
    requires forall i :: 0 <= i < |t| ==> IsDigit(t[i]) || t[i] == '.' || t[i] == '-'
    requires StringToNumber(t) == Some(x)
    ensures SafeNum(Str(t)) == x
  {
    CleanNumeral(t);
  }

  lemma CleanNumeral(t: string)
    requires forall i :: 0 <= i < |t| ==> IsNumberChar(t[i])
    ensures CleanNumber(t) == t
  {
    assert ',' !in t by {
      forall i | 0 <= i < |t| ensures t[i] != ',' { assert IsNumberChar(t[i]); }
    }
    FilterKeepsAll(IsNumberChar, t);
  }

  /** A French decimal `ip,fp` (digits, a comma, digits) reads as ip.fp. */
  lemma SafeNumDecimalComma(ip: string, fp: string)
    requires AllDigits(ip) && AllDigits(fp) && |ip| > 0
    ensures SafeNum(Str(ip + "," + fp)) == PointValue(ip, fp)
  {
    var t := ip + "." + fp;
    assert CleanNumber(ip + "," + fp) == t by {
      CommaToPoint(ip, fp);
      PointNumeral(ip, fp);
    }
    assert StringToNumber(t) == Some(PointValue(ip, fp)) by {
      DecimalPointNumber(ip, fp);
    }
    SafeNumOfClean(ip + "," + fp, t, PointValue(ip, fp));
  }

  /** SafeNum of a string is Number() of its cleaned form, when that is a number. */
  lemma SafeNumOfClean(s: string, t: string, x: real)
    requires CleanNumber(s) == t && StringToNumber(t) == Some(x)
    ensures SafeNum(Str(s)) == x
  {
  }

  lemma CommaToPoint(ip: string, fp: string)
    requires AllDigits(ip) && AllDigits(fp)
    ensures CleanNumber(ip + "," + fp) == CleanNumber(ip + "." + fp)
  {
    assert ',' !in ip by {
      forall i | 0 <= i < |ip| ensures ip[i] != ',' { assert IsDigit(ip[i]); }
    }
    var t := ip + "." + fp;
    assert ReplaceFirstComma(ip + "," + fp) == t by {
      ReplaceDecimalComma(ip, fp);
    }
    assert ReplaceFirstComma(t) == t by {
      assert ',' !in fp by {
        forall i | 0 <= i < |fp| ensures fp[i] != ',' { assert IsDigit(fp[i]); }
      }
    }
  }

  lemma PointNumeral(ip: string, fp: string)
    requires AllDigits(ip) && AllDigits(fp)
    ensures CleanNumber(ip + "." + fp) == ip + "." + fp
  {
    var t := ip + "." + fp;
    forall i | 0 <= i < |t| ensures IsNumberChar(t[i]) {
      if i < |ip| { assert t[i] == ip[i]; }
      else if i > |ip| { assert t[i] == fp[i - |ip| - 1]; }
    }
    CleanNumeral(t);
  }

  lemma DecimalPointNumber(ip: string, fp: string)
    requires AllDigits(ip) && AllDigits(fp) && |ip| > 0
    ensures StringToNumber(ip + "." + fp) == Some(PointValue(ip, fp))
  {
    var t := ip + "." + fp;
    assert t[0] == ip[0] && IsDigit(t[0]);
    assert Trim(t) == t by {
      assert t[|t| - 1] == '.' || t[|t| - 1] == fp[|fp| - 1];
      TrimUnchanged(t);
    }
    assert StringToNumber(t) == UnsignedDecimal(t);
    FractionParse(ip, fp);
  }

  /** Cleaning is idempotent: only the first comma is turned into a point and
      every other comma is dropped, so a cleaned string has none left. */
  lemma CleanNumberIdempotent(s: string)
    ensures CleanNumber(CleanNumber(s)) == CleanNumber(s)
  {
    var t := CleanNumber(s);
    assert ',' !in t by {
      forall i | 0 <= i < |t| ensures t[i] != ',' { assert IsNumberChar(t[i]); }
    }
    FilterKeepsAll(IsNumberChar, t);
  }

  /** Cleaning adds no minus sign. */
  lemma CleanNoMinus(s: string)
    ensures '-' !in s ==> '-' !in CleanNumber(s)
  {
    var t := CleanNumber(s);
    var u := ReplaceFirstComma(s);
    if '-' !in s {
      assert '-' !in u;
    }
  }

  /** Number() of a string of digits and points is never negative. */
  lemma UnsignedNumber(t: string)
    requires forall i :: 0 <= i < |t| ==> IsNumberChar(t[i])
    ensures '-' !in t && StringToNumber(t).Some? ==> StringToNumber(t).value >= 0.0
  {
    if t != [] && '-' !in t {
      assert IsNumberChar(t[0]) && IsNumberChar(t[|t| - 1]);
      TrimUnchanged(t);
    }
  }

  /* -------------------------------------------------------------- parseDate */

  /** The pattern /^\d{2}\/\d{2}\/\d{4}$/. */
  predicate IsDatePattern(s: string)
  {
    |s| == 10 && AllDigits(s[0..2]) && s[2] == '/' && AllDigits(s[3..5]) && s[5] == '/'
    && AllDigits(s[6..10])
  }

  /** parseDate on a DD/MM/YYYY string: `new Date(year, month - 1, day)`, so an
      out-of-range day or month rolls over and years 00..99 mean 1900..1999. */
  function PatternDate(s: string): (r: Date)
    requires IsDatePattern(s)
    ensures Valid(r)
  {
    MakeDate(DigitsValue(s[6..10]), DigitsValue(s[3..5]) - 1, DigitsValue(s[0..2]))
  }

  /** The date of a DD/MM/YYYY text lies DD - 1 days after the first of the
      month MM - 1 counts from January of YYYY (years 00..99 meaning 19YY). */
  lemma PatternDateDayNumber(s: string)
    requires IsDatePattern(s)
    ensures DayNumber(PatternDate(s)) ==
      DayNumber(MonthStart(DigitsValue(s[6..10]), DigitsValue(s[3..5]) - 1)) + DigitsValue(s[0..2]) - 1
  {
    MakeDateDayNumber(DigitsValue(s[6..10]), DigitsValue(s[3..5]) - 1, DigitsValue(s[0..2]));
  }

  /** parseDate(cell): null for a falsy cell; a string is split on '/';
      `split` does not exist on any other value, so the call throws. */
  function ParseDate(v: Value): (r: Result<DateCell>)
    ensures r.TypeError? <==> Truthy(v) && !v.Str?
    ensures r == Ok(NoDate) <==> !Truthy(v)
    ensures r.Ok? && r.value.Day? <==> v.Str? && IsDatePattern(v.s)
    ensures r.Ok? && r.value.Day? ==> Valid(r.value.date)
  {
    if !Truthy(v) then Ok(NoDate)
    else match v
      case Str(s) => Ok(if IsDatePattern(s) then Day(PatternDate(s)) else Unparsed(s))
      case _ => TypeError
  }

  /** The DD/MM/YYYY text of a date whose year has at most four digits. */
  function FormatDate(date: Date): string
    requires Valid(date) && 0 <= date.y
  {
    PadLeft(NatText(date.d), 2) + "/" + PadLeft(NatText(date.m), 2) + "/" + PadLeft(NatText(date.y), 4)
  }

  /** Writing a date as DD/MM/YYYY and parsing it gives the date back, for the
      years 100..9999 (two-digit years are shifted by the Date constructor). */
  lemma ParseFormatDate(date: Date)
    requires Valid(date) && 100 <= date.y <= 9999
    ensures IsDatePattern(FormatDate(date))
    ensures ParseDate(Str(FormatDate(date))) == Ok(Day(date))
  {
    var dd, mm, yy := PadLeft(NatText(date.d), 2), PadLeft(NatText(date.m), 2), PadLeft(NatText(date.y), 4);
    var s := FormatDate(date);
    assert IsDatePattern(s) && DigitsValue(s[0..2]) == date.d && DigitsValue(s[3..5]) == date.m
      && DigitsValue(s[6..10]) == date.y
    by {
      NatTextLength(date.d, 2);
      NatTextLength(date.m, 2);
      NatTextLength(date.y, 4);
      FormatParts(dd, mm, yy);
      assert s[0..2] == dd && s[3..5] == mm && s[6..10] == yy;
    }
    PatternOfFields(s, date);
  }

  /** A DD/MM/YYYY text whose fields are those of a valid date, with a year
      of at least 100, parses to that date. */
  lemma PatternOfFields(s: string, date: Date)
    requires IsDatePattern(s) && Valid(date) && 100 <= date.y
    requires DigitsValue(s[0..2]) == date.d && DigitsValue(s[3..5]) == date.m && DigitsValue(s[6..10]) == date.y
    ensures PatternDate(s) == date
  {
    MakeDateOfValid(date);
  }

  lemma FormatParts(dd: string, mm: string, yy: string)
    requires |dd| == 2 && |mm| == 2 && |yy| == 4
    ensures var s := dd + "/" + mm + "/" + yy;
      |s| == 10 && s[0..2] == dd && s[2] == '/' && s[3..5] == mm && s[5] == '/' && s[6..10] == yy
  {
    var s := dd + "/" + mm + "/" + yy;
    assert s[0..2] == dd;
    assert s[3..5] == mm;
    assert s[6..10] == yy;
  }

  /* --------------------------------------------------------- parseGitesData */

  /** row[i], undefined past the end of the row. */
  function Cell(items: seq<Value>, i: nat): Value
  {
    if i < |items| then items[i] else Undefined
  }

  /** The rows kept as bookings: arrays of at least nine cells whose second
      cell is a DD/MM/YYYY string (totals and headers fail this test). */
  predicate IsBookingRow(row: Value)
  {
    row.Arr? && |row.items| >= 9 && row.items[1].Str? && IsDatePattern(row.items[1].s)
  }

  /** The row test holds exactly for the arrays of at least nine cells whose
      second cell parseDate reads as a date. */
  lemma BookingRowDate(row: Value)
    ensures IsBookingRow(row) <==>
      row.Arr? && |row.items| >= 9 && ParseDate(row.items[1]).Ok? && ParseDate(row.items[1]).value.Day?
  {
  }

  /** `(row[8] || "").toString().trim()`. */
  function PaymentText(v: Value): (r: string)
    ensures Trim(r) == r
  {
    TrimIdempotent(if Truthy(v) then ToStr(v) else "");
    Trim(if Truthy(v) then ToStr(v) else "")
  }

  /** A check-out cell parseDate throws on: truthy but not a string. */
  predicate BadFin(row: Value)
    requires IsBookingRow(row)
  {
    Truthy(row.items[2]) && !row.items[2].Str?
  }

  /** The entry built from a booking row; only parseDate on the check-out
      cell can throw. The start date is always there (the row passed the
      date test) and the payment text is trimmed. */
  function ToEntry(row: Value): (r: Result<Entry>)
    requires IsBookingRow(row)
    ensures r.TypeError? <==> BadFin(row)
    ensures r.Ok? ==> r.value.debut.Some? && Valid(r.value.debut.value)
    ensures r.Ok? ==> Trim(r.value.paiement) == r.value.paiement
  {
    var c := row.items;
    match ParseDate(c[2])
    case TypeError => TypeError
    case Ok(fin) =>
      Ok(Entry(c[0], Some(PatternDate(c[1].s)), fin, NumberOf(c[3]), SafeNum(c[4]), SafeNum(c[5]),
               SafeNum(c[6]), SafeNum(c[7]), PaymentText(c[8]), SafeNum(Cell(c, 9)), SafeNum(Cell(c, 10))))
  }

  /** Array.prototype.map with a callback that may throw: the results in
      order, or the throw of the first element that throws. */
  function MapResult<A, B>(f: A --> Result<B>, s: seq<A>): (r: Result<seq<B>>)
    requires forall i :: 0 <= i < |s| ==> f.requires(s[i])
    ensures r.Ok? ==> |r.value| == |s| && forall i :: 0 <= i < |s| ==> f(s[i]) == Ok(r.value[i])
    ensures r.TypeError? <==> exists i :: 0 <= i < |s| && f(s[i]).TypeError?
  {
    if s == [] then Ok([])
    else match f(s[0])
      case TypeError => TypeError
      case Ok(e) =>
        match MapResult(f, s[1..])
        case TypeError =>
          var i :| 0 <= i < |s[1..]| && f(s[1..][i]).TypeError?;
          assert f(s[i + 1]).TypeError?;
          TypeError
        case Ok(es) => Ok([e] + es)
  }

  /** `rows.filter(isBookingRow).map(toEntry)`: the booking rows, kept in
      their order, each turned into its entry. */
  function ParseRows(rows: seq<Value>): (r: Result<seq<Entry>>)
    ensures r.Ok? ==> var kept := Filter(IsBookingRow, rows);
      && IsSubseq(kept, rows)
      && |r.value| == |kept|
      && forall i :: 0 <= i < |kept| ==> IsBookingRow(kept[i]) && ToEntry(kept[i]) == Ok(r.value[i])
  {
    KeptRows(rows);
    FilterIsSubseq(IsBookingRow, rows);
    MapResult(ToEntry, Filter(IsBookingRow, rows))
  }

  lemma KeptRows(rows: seq<Value>)
    ensures var kept := Filter(IsBookingRow, rows); forall i :: 0 <= i < |kept| ==> IsBookingRow(kept[i])
  {
    var kept := Filter(IsBookingRow, rows);
    assert forall i :: 0 <= i < |kept| ==> kept[i] in kept;
  }

  /** The entries of one property: a falsy value is an empty list, an array
      is filtered and mapped, anything else has no `.filter` and throws. */
  function ParseProperty(v: Value): (r: Result<seq<Entry>>)
    ensures v.Arr? && r.Ok? ==> var kept := Filter(IsBookingRow, v.items);
      && IsSubseq(kept, v.items)
      && |r.value| == |kept|
      && forall i :: 0 <= i < |kept| ==> IsBookingRow(kept[i]) && ToEntry(kept[i]) == Ok(r.value[i])
  {
    match v
    case Arr(items) => ParseRows(items)
    case _ => if Truthy(v) then TypeError else Ok([])
  }

  /** A property's value throws exactly when it is truthy and not an array,
      or when one of its booking rows has a truthy non-string check-out cell. */
  lemma ParsePropertyError(v: Value)
    ensures ParseProperty(v).TypeError? <==>
      Truthy(v) && (!v.Arr? || exists row :: row in v.items && IsBookingRow(row) && BadFin(row))
  {
    match v
    case Arr(items) => ParseRowsError(items);
    case _ =>
  }

  lemma ParseRowsError(rows: seq<Value>)
    ensures ParseRows(rows).TypeError? <==> exists row :: row in rows && IsBookingRow(row) && BadFin(row)
  {
    if ParseRows(rows).TypeError? {
      ThrowingRow(rows);
    } else {
      forall row | row in rows && IsBookingRow(row)
        ensures !BadFin(row)
      {
        KeptRowOk(rows, row);
      }
    }
  }

  /** A throw comes from a booking row with a bad check-out cell. */
  lemma ThrowingRow(rows: seq<Value>)
    requires ParseRows(rows).TypeError?
    ensures exists row :: row in rows && IsBookingRow(row) && BadFin(row)
  {
    var kept := Filter(IsBookingRow, rows);
    ThrowingKeptRow(rows);
    var row :| row in kept && IsBookingRow(row) && BadFin(row);
    assert row in rows by {
      assert multiset(kept)[row] == multiset(rows)[row];
    }
  }

  /** A throw comes from one of the kept rows. */
  lemma ThrowingKeptRow(rows: seq<Value>)
    requires ParseRows(rows).TypeError?
    ensures exists row :: row in Filter(IsBookingRow, rows) && IsBookingRow(row) && BadFin(row)
  {
    var kept := Filter(IsBookingRow, rows);
    KeptRows(rows);
    assert ParseRows(rows) == MapResult(ToEntry, kept);
    MappingThrows(kept);
  }

  /** Mapping booking rows throws only at a row with a bad check-out cell. */
  lemma MappingThrows(s: seq<Value>)
    requires forall i :: 0 <= i < |s| ==> IsBookingRow(s[i])
    requires MapResult(ToEntry, s).TypeError?
    ensures exists row :: row in s && IsBookingRow(row) && BadFin(row)
  {
    var i :| 0 <= i < |s| && ToEntry(s[i]).TypeError?;
    assert s[i] in s;
  }

  /** When the rows parse, no booking row among them has a bad check-out cell. */
  lemma KeptRowOk(rows: seq<Value>, row: Value)
    requires ParseRows(rows).Ok? && row in rows && IsBookingRow(row)
    ensures !BadFin(row)
  {
    var kept := Filter(IsBookingRow, rows);
    assert row in kept by {
      assert multiset(kept)[row] == multiset(rows)[row];
    }
    var i :| 0 <= i < |kept| && kept[i] == row;
    assert ToEntry(kept[i]) == Ok(ParseRows(rows).value[i]);
  }

  /** Every parsed entry has a valid start date, and its payment text is trimmed. */
  predicate WellFormed(e: Entry)
  {
    e.debut.Some? && Valid(e.debut.value) && Trim(e.paiement) == e.paiement
  }

  lemma ParsePropertyEntries(v: Value)
    requires ParseProperty(v).Ok?
    ensures forall e :: e in ParseProperty(v).value ==> WellFormed(e)
  {
    if Truthy(v) {
      var kept := Filter(IsBookingRow, v.items);
      var es := ParseProperty(v).value;
      forall e | e in es ensures WellFormed(e) {
        var i :| 0 <= i < |es| && es[i] == e;
        ToEntryWellFormed(kept[i]);
      }
    }
  }

  /** One booking row that does not throw gives a well-formed entry. */
  lemma ToEntryWellFormed(row: Value)
    requires IsBookingRow(row) && ToEntry(row).Ok?
    ensures WellFormed(ToEntry(row).value)
  {
  }

  /** parseGitesData: every key of the feed, its value turned into entries.
      Any throw aborts the whole parse. */
  method ParseGitesData(raw: map<string, Value>) returns (r: Result<Dataset>)
    ensures r.TypeError? <==> exists k :: k in raw && ParseProperty(raw[k]).TypeError?
    ensures r.Ok? ==> r.value.Keys == raw.Keys
    ensures r.Ok? ==> forall k :: k in raw ==> ParseProperty(raw[k]) == Ok(r.value[k])
  {
    var gites: Dataset := map[];
    var keys := raw.Keys;
    while keys != {}
      invariant keys <= raw.Keys
      invariant gites.Keys == raw.Keys - keys
      invariant forall k :: k in gites ==> ParseProperty(raw[k]) == Ok(gites[k])
      decreases keys
    {
      var k :| k in keys;
      match ParseProperty(raw[k]) {
        case TypeError =>
          return TypeError;
        case Ok(es) =>
          gites := gites[k := es];
      }
      keys := keys - {k};
    }
    return Ok(gites);
  }
}

=== FILE: seqs.dfy ===
/** Generic facts about sequences and maps used by the aggregation model:
    an order-preserving filter (JavaScript's Array.prototype.filter) and the
    sum of the values of a map (a forEach over an object's values). */
module Seqs {

  /** `a` is `b` with some elements deleted, the rest kept in their order. */
  predicate IsSubseq<T(==)>(a: seq<T>, b: seq<T>)
    decreases |b|
  {
    if a == [] then true
    else if b == [] then false
    else (a[0] == b[0] && IsSubseq(a[1..], b[1..])) || IsSubseq(a, b[1..])
  }

  /** Array.prototype.filter: the elements of `s` that satisfy `p`, in order,
      each with the multiplicity it has in `s`, and nothing else. */
  function Filter<T(==,!new)>(p: T -> bool, s: seq<T>): (r: seq<T>)
    ensures forall x :: x in r ==> p(x)
    ensures forall x :: multiset(r)[x] == if p(x) then multiset(s)[x] else 0
  {
    if s == [] then []
    else
      assert s == [s[0]] + s[1..];
      if p(s[0]) then [s[0]] + Filter(p, s[1..]) else Filter(p, s[1..])
  }

  /** A sequence is its part before `k`, its element at `k` and its part after `k`. */
  lemma SplitAt<T>(s: seq<T>, k: int)
    requires 0 <= k < |s|
    ensures s == s[..k] + [s[k]] + s[k + 1..]
  {
  }

  /** A non-empty sequence is its front followed by its last element. */
  lemma SplitLast<T>(s: seq<T>)
    requires s != []
    ensures s == s[..|s| - 1] + [s[|s| - 1]]
  {
  }

  /** Filtering keeps the relative order of what it keeps. */
  lemma {:induction false} FilterIsSubseq<T(!new)>(p: T -> bool, s: seq<T>)
    ensures IsSubseq(Filter(p, s), s)
  {
    if s != [] {
      FilterIsSubseq(p, s[1..]);
      var r := Filter(p, s[1..]);
      if p(s[0]) {
        assert ([s[0]] + r)[1..] == r;
      } else if r != [] {
        assert IsSubseq(r, s[1..]);
      }
    }
  }

  /** A filter that every element passes returns its input unchanged. */
  lemma {:induction false} FilterKeepsAll<T(!new)>(p: T -> bool, s: seq<T>)
    requires forall i :: 0 <= i < |s| ==> p(s[i])
    ensures Filter(p, s) == s
  {
    if s != [] {
      FilterKeepsAll(p, s[1..]);
    }
  }

  /** Sum of the values of a map, in no particular key order. */
  ghost function SumMap<K>(m: map<K, real>): real
    decreases |m|
  {
    if m == map[] then 0.0
    else
      var k :| k in m;
      m[k] + SumMap(m - {k})
  }

  /** The sum does not depend on which key is taken out first. */
  lemma {:induction false} SumMapRemove<K>(m: map<K, real>, k: K)
    requires k in m
    ensures SumMap(m) == m[k] + SumMap(m - {k})
    decreases |m|
  {
    var j :| j in m && SumMap(m) == m[j] + SumMap(m - {j});
    if j != k {
      var mj, mk := m - {j}, m - {k};
      assert k in mj && j in mk;
      SumMapRemove(mj, k);
      SumMapRemove(mk, j);
      assert mj - {k} == mk - {j};
    }
  }

  /** Adding a fresh key adds its value to the sum. */
  lemma SumMapAdd<K>(m: map<K, real>, k: K, v: real)
    requires k !in m
    ensures SumMap(m[k := v]) == SumMap(m) + v
  {
    SumMapRemove(m[k := v], k);
    assert m[k := v] - {k} == m;
  }

  /** Overwriting a key replaces its contribution to the sum. */
  lemma SumMapReplace<K>(m: map<K, real>, k: K, v: real)
    requires k in m
    ensures SumMap(m[k := v]) == SumMap(m) - m[k] + v
  {
    SumMapRemove(m[k := v], k);
    SumMapRemove(m, k);
    assert m[k := v] - {k} == m - {k};
  }

  /** `m` with `v` added to the value of `k`, a missing key counting as 0. */
  function Bump<K>(m: map<K, real>, k: K, v: real): (r: map<K, real>)
    ensures r.Keys == m.Keys + {k}
    ensures r[k] == (if k in m then m[k] else 0.0) + v
    ensures forall j :: j in m && j != k ==> r[j] == m[j]
  {
    m[k := (if k in m then m[k] else 0.0) + v]
  }

  /** Adding `v` to the value of `k`, a missing key counting as 0, adds `v`
      to the sum. */
  lemma SumMapBump<K>(m: map<K, real>, k: K, v: real)
    ensures SumMap(Bump(m, k, v)) == SumMap(m) + v
  {
    if k in m {
      SumMapReplace(m, k, m[k] + v);
    } else {
      SumMapAdd(m, k, v);
    }
  }

  /** `s.reduce((sum, x) => sum + w(x), 0)`, left to right. */
  function Sum<T>(w: T -> real, s: seq<T>): real
  {
    if s == [] then 0.0 else Sum(w, s[..|s| - 1]) + w(s[|s| - 1])
  }

  /** A sum of non-negative weights is non-negative. */
  lemma {:induction false} SumNonNegative<T>(w: T -> real, s: seq<T>)
    requires forall i :: 0 <= i < |s| ==> w(s[i]) >= 0.0
    ensures Sum(w, s) >= 0.0
  {
    if s != [] {
      SumNonNegative(w, s[..|s| - 1]);
    }
  }

  /** The keys `key` gives to the elements of `s`. */
  function KeysOf<T, K>(key: T -> K, s: seq<T>): set<K>
  {
    if s == [] then {} else KeysOf(key, s[..|s| - 1]) + {key(s[|s| - 1])}
  }

  /** The sum of `w` over the elements of `s` whose key is `k`. */
  function KeySum<T, K(==)>(key: T -> K, w: T -> real, s: seq<T>, k: K): real
  {
    if s == [] then 0.0
    else KeySum(key, w, s[..|s| - 1], k) + (if key(s[|s| - 1]) == k then w(s[|s| - 1]) else 0.0)
  }

  /** A running tally in a map: each element adds its weight under its key,
      a key not yet present counting as 0. */
  function Tally<T, K>(key: T -> K, w: T -> real, s: seq<T>): map<K, real>
  {
    if s == [] then map[]
    else
      Bump(Tally(key, w, s[..|s| - 1]), key(s[|s| - 1]), w(s[|s| - 1]))
  }

  /** A key that no element has sums to 0. */
  lemma {:induction false} KeySumAbsent<T, K>(key: T -> K, w: T -> real, s: seq<T>, k: K)
    requires k !in KeysOf(key, s)
    ensures KeySum(key, w, s, k) == 0.0
  {
    if s != [] {
      KeySumAbsent(key, w, s[..|s| - 1], k);
    }
  }

  /** The tally has exactly the keys that occur, each holding the sum of
      the weights of its elements. */
  lemma {:induction false} TallyByKey<T, K>(key: T -> K, w: T -> real, s: seq<T>)
    ensures forall k :: k in Tally(key, w, s) <==> k in KeysOf(key, s)
    ensures forall k :: k in Tally(key, w, s) ==> Tally(key, w, s)[k] == KeySum(key, w, s, k)
  {
    if s != [] {
      var init, x := s[..|s| - 1], s[|s| - 1];
      TallyByKey(key, w, init);
      if key(x) !in KeysOf(key, init) {
        KeySumAbsent(key, w, init, key(x));
      }
      var m, t := Tally(key, w, init), Tally(key, w, s);
      assert t == Bump(m, key(x), w(x));
      forall k | k in t ensures t[k] == KeySum(key, w, s, k) {
        assert KeySum(key, w, s, k) == KeySum(key, w, init, k) + (if key(x) == k then w(x) else 0.0);
      }
    }
  }

  /** The tally adds up to the sum of all the weights. */
  lemma {:induction false} TallyTotal<T, K>(key: T -> K, w: T -> real, s: seq<T>)
    ensures SumMap(Tally(key, w, s)) == Sum(w, s)
  {
    if s == [] {
      assert Tally(key, w, s) == map[];
    } else {
      var init, x := s[..|s| - 1], s[|s| - 1];
      TallyTotal(key, w, init);
      SumMapBump(Tally(key, w, init), key(x), w(x));
    }
  }

  /** One more element of `s` adds its weight under its key. */
  lemma TallyPrefix<T, K>(key: T -> K, w: T -> real, s: seq<T>, i: int)
    requires 0 <= i < |s|
    ensures Tally(key, w, s[..i + 1]) == Bump(Tally(key, w, s[..i]), key(s[i]), w(s[i]))
  {
    assert s[..i + 1][..i] == s[..i];
  }

  lemma KeySumEmpty<T, K>(key: T -> K, w: T -> real, s: seq<T>, k: K)
    requires s == []
    ensures KeySum(key, w, s, k) == 0.0
  {
  }
}

=== FILE: stats.dfy ===
/** The dashboard figures of a period: the header totals over every property,
    and the card of one property with its revenue per payment tag and its
    guest-nights per payment group. */
module Stats {
  import opened Seqs
  import opened JsStrings
  import opened JsValues
  import opened Records
  import opened Periods

  /* The `x || 0` of the sums: with exact reals no number is NaN, and 0 is
     replaced by 0, so each of these is the field itself. */

  function Nights(e: Entry): real { e.nuits }

  function Revenue(e: Entry): real { e.revenus }

  /** Guest-nights: `(e.nuits || 0) * (e.adultes || 0)`. */
  function GuestNights(e: Entry): real { e.nuits * e.adultes }

  function One(e: Entry): real { 1.0 }

  /** Summing ones counts. */
  lemma {:induction false} SumOne(s: seq<Entry>)
    ensures Sum(One, s) == |s| as real
  {
    if s != [] {
      SumOne(s[..|s| - 1]);
    }
  }

  /* ------------------------------------------------------- computeGlobalStats */

  datatype GlobalStats = GlobalStats(totalReservations: int, totalNights: real, totalCA: real)

  /** Per property of `keys`, the sum of `w` over its bookings of the period. */
  function PerProperty(gites: Dataset, keys: set<string>, w: Entry -> real, year: int, month: int): map<string, real>
  {
    map k | k in gites && k in keys :: Sum(w, FilterDataByPeriod(gites[k], year, month))
  }

  /** The header figure for `w`: the sum over every property. */
  ghost function Total(gites: Dataset, w: Entry -> real, year: int, month: int): real
  {
    SumMap(PerProperty(gites, gites.Keys, w, year, month))
  }

  /** computeGlobalStats: bookings, nights and revenue of the period, added
      up over every property (in whatever order the keys come). */
  method ComputeGlobalStats(gites: Dataset, year: int, month: int) returns (r: GlobalStats)
    ensures r.totalReservations as real == Total(gites, One, year, month)
    ensures r.totalNights == Total(gites, Nights, year, month)
    ensures r.totalCA == Total(gites, Revenue, year, month)
  {
    var totalReservations, totalNights, totalCA := 0, 0.0, 0.0;
    var todo := gites.Keys;
    ghost var done: set<string> := {};
    while todo != {}
      invariant todo <= gites.Keys && done == gites.Keys - todo
      invariant totalReservations as real == SumMap(PerProperty(gites, done, One, year, month))
      invariant totalNights == SumMap(PerProperty(gites, done, Nights, year, month))
      invariant totalCA == SumMap(PerProperty(gites, done, Revenue, year, month))
      decreases todo
    {
      var k := Element(todo);
      var filtered := FilterDataByPeriod(gites[k], year, month);
      SumOne(filtered);
      PerPropertyAdd(gites, done, k, One, year, month);
      PerPropertyAdd(gites, done, k, Nights, year, month);
      PerPropertyAdd(gites, done, k, Revenue, year, month);
      totalReservations := totalReservations + |filtered|;
      totalNights := totalNights + Sum(Nights, filtered);
      totalCA := totalCA + Sum(Revenue, filtered);
      todo := todo - {k};
      done := done + {k};
    }
    assert done == gites.Keys;
    r := GlobalStats(totalReservations, totalNights, totalCA);
  }

  /** Taking one more property into the sum adds its figure. */
  lemma PerPropertyAdd(gites: Dataset, done: set<string>, k: string, w: Entry -> real, year: int, month: int)
    requires k in gites && k !in done
    ensures SumMap(PerProperty(gites, done + {k}, w, year, month)) ==
      SumMap(PerProperty(gites, done, w, year, month)) + Sum(w, FilterDataByPeriod(gites[k], year, month))
  {
    var m := PerProperty(gites, done, w, year, month);
    assert PerProperty(gites, done + {k}, w, year, month) == m[k := Sum(w, FilterDataByPeriod(gites[k], year, month))];
    SumMapAdd(m, k, Sum(w, FilterDataByPeriod(gites[k], year, month)));
  }

  /** A header figure is the sum of the properties' own figures: one more
      property adds exactly its card's value. */
  lemma TotalAddProperty(gites: Dataset, k: string, arr: seq<Entry>, w: Entry -> real, year: int, month: int)
    requires k !in gites
    ensures Total(gites[k := arr], w, year, month) == Total(gites, w, year, month) + Sum(w, FilterDataByPeriod(arr, year, month))
  {
    var g := gites[k := arr];
    var m, v := PerProperty(gites, gites.Keys, w, year, month), Sum(w, FilterDataByPeriod(arr, year, month));
    var n := PerProperty(g, g.Keys, w, year, month);
    assert n.Keys == m[k := v].Keys;
    assert forall j | j in n :: n[j] == m[k := v][j];
    assert n == m[k := v];
    SumMapAdd(m, k, v);
  }

  /* -------------------------------------------------------- computeGiteStats */

  /** The tag a booking's revenue is filed under: its payment text, or
      "Indéfini" when that is empty or blank. */
  function Label(e: Entry): (l: string)
    ensures l != ""
  {
    if e.paiement != "" && Trim(e.paiement) != "" then e.paiement else "Ind\U{E9}fini"
  }

  /** The accented letters computeGiteStats folds: é, è, ê, ë and à, â. */
  predicate IsFoldedAccent(c: char)
  {
    c == '\U{E9}' || c == '\U{E8}' || c == '\U{EA}' || c == '\U{EB}' || c == '\U{E0}' || c == '\U{E2}'
  }

  /** `.replace(/[éèêë]/g, "e").replace(/[àâ]/g, "a")` on one character. */
  function FoldChar(c: char): char
  {
    if c == '\U{E9}' || c == '\U{E8}' || c == '\U{EA}' || c == '\U{EB}' then 'e'
    else if c == '\U{E0}' || c == '\U{E2}' then 'a'
    else c
  }

  /** The two replacements on a whole string: none of the six accented
      letters is left, and every other character stays where it was. */
  function Fold(s: string): (r: string)
    ensures |r| == |s|
    ensures forall i :: 0 <= i < |r| ==> !IsFoldedAccent(r[i])
    ensures forall i :: 0 <= i < |s| && !IsFoldedAccent(s[i]) ==> r[i] == s[i]
  {
    seq(|s|, i requires 0 <= i < |s| => FoldChar(s[i]))
  }

  /** Folding twice is folding once. */
  lemma FoldIdempotent(s: string)
    ensures Fold(Fold(s)) == Fold(s)
  {
  }

  /** The four groups of the guest-night breakdown. */
  datatype Group = VirementCheque | Airbnb | Abritel | GitesDeFrance

  /** The tests of computeGiteStats, in order: the first pattern the folded
      tag contains decides its group. */
  const Patterns: seq<(string, Group)> := [
    ("airbnb", Airbnb), ("abritel", Abritel), ("gites de france", GitesDeFrance),
    ("virement", VirementCheque), ("ch\U{E8}que", VirementCheque), ("cheque", VirementCheque)]

  function FirstMatch(p: string, patterns: seq<(string, Group)>): Option<Group>
  {
    if patterns == [] then None
    else if Contains(p, patterns[0].0) then Some(patterns[0].1)
    else FirstMatch(p, patterns[1..])
  }

  /** The group found is that of a pattern `p` contains, and every earlier
      pattern is absent from `p`; no group means no pattern occurs. */
  lemma {:induction false} FirstMatchSpec(p: string, patterns: seq<(string, Group)>)
    ensures FirstMatch(p, patterns).Some? ==>
      exists k :: (0 <= k < |patterns| && patterns[k].1 == FirstMatch(p, patterns).value &&
                   Contains(p, patterns[k].0) && forall j :: 0 <= j < k ==> !Contains(p, patterns[j].0))
    ensures FirstMatch(p, patterns).None? ==> forall k :: 0 <= k < |patterns| ==> !Contains(p, patterns[k].0)
  {
    if patterns != [] && !Contains(p, patterns[0].0) {
      var rest := patterns[1..];
      FirstMatchSpec(p, rest);
      if FirstMatch(p, rest).Some? {
        var k :| 0 <= k < |rest| && rest[k].1 == FirstMatch(p, rest).value && Contains(p, rest[k].0) &&
          forall j :: 0 <= j < k ==> !Contains(p, rest[j].0);
        assert patterns[k + 1] == rest[k];
        forall j | 0 <= j < k + 1 ensures !Contains(p, patterns[j].0) {
          if j > 0 {
            assert patterns[j] == rest[j - 1];
          }
        }
      } else {
        forall k | 1 <= k < |patterns| ensures !Contains(p, patterns[k].0) {
          assert patterns[k] == rest[k - 1];
        }
      }
    } else if patterns != [] {
      assert Contains(p, patterns[0].0);
    }
  }

  /** The group of a payment tag: the lower-cased tag with accented e and a
      folded, matched against the patterns in order; no group when none
      matches. */
  function Classify(tag: string): (g: Option<Group>)
    ensures var p := Fold(ToLowerCase(tag));
      g.None? <==> forall k :: 0 <= k < |Patterns| ==> !Contains(p, Patterns[k].0)
    ensures var p := Fold(ToLowerCase(tag));
      g.Some? ==> exists k ::
        && 0 <= k < |Patterns|
        && Patterns[k].1 == g.value
        && Contains(p, Patterns[k].0)
        && forall j :: 0 <= j < k ==> !Contains(p, Patterns[j].0)
  {
    FirstMatchSpec(Fold(ToLowerCase(tag)), Patterns);
    FirstMatch(Fold(ToLowerCase(tag)), Patterns)
  }

  /** The test for "chèque" never succeeds: its è has already been folded
      to e, so only the "cheque" test catches these labels. */
  lemma ChequeTestDead(tag: string)
    ensures !Contains(Fold(ToLowerCase(tag)), Patterns[4].0)
  {
    var p := Fold(ToLowerCase(tag));
    assert '\U{E8}' !in p by {
      forall i | 0 <= i < |p| ensures p[i] != '\U{E8}' {
        assert !IsFoldedAccent(p[i]);
      }
    }
    NotContainsMissingChar(p, Patterns[4].0, 2);
  }

  /** Every pattern holds an i or an h, so a tag with neither, in either
      case, is in no group. */
  lemma NoGroupWithoutIOrH(tag: string)
    requires 'i' !in tag && 'I' !in tag && 'h' !in tag && 'H' !in tag
    ensures Classify(tag) == None
  {
    var p := Fold(ToLowerCase(tag));
    forall j | 0 <= j < |p| ensures p[j] != 'i' && p[j] != 'h' {
      assert p[j] == FoldChar(LowerChar(tag[j]));
      assert tag[j] in tag;
    }
    assert 'i' !in p && 'h' !in p;
    NotContainsMissingChar(p, Patterns[0].0, 1);
    NotContainsMissingChar(p, Patterns[1].0, 3);
    NotContainsMissingChar(p, Patterns[2].0, 1);
    NotContainsMissingChar(p, Patterns[3].0, 1);
    NotContainsMissingChar(p, Patterns[4].0, 1);
    NotContainsMissingChar(p, Patterns[5].0, 1);
    assert forall k :: 0 <= k < |Patterns| ==> !Contains(p, Patterns[k].0);
    FirstMatchSpec(p, Patterns);
  }

  /** "Gîtes de France" written with its circumflex is in no group: the
      folding does not touch î. */
  lemma CircumflexGitesUnclassified()
    ensures Classify("G\U{EE}tes de France") == None
  {
    NoGroupWithoutIOrH("G\U{EE}tes de France");
  }

  /** "Chèque" falls in the bank-transfer / cheque group. */
  lemma ChequeClassified()
    ensures Classify("Ch\U{E8}que") == Some(VirementCheque)
  {
    var p := Fold(ToLowerCase("Ch\U{E8}que"));
    assert p == "cheque";
    NotContainsMissingChar(p, Patterns[0].0, 0);
    NotContainsMissingChar(p, Patterns[1].0, 0);
    NotContainsMissingChar(p, Patterns[2].0, 0);
    NotContainsMissingChar(p, Patterns[3].0, 0);
    ChequeTestDead("Ch\U{E8}que");
    assert p[..6] == Patterns[5].0;
  }

  /** The group a booking's guest-nights go to. */
  function GroupOf(e: Entry): Option<Group>
  {
    Classify(Label(e))
  }

  datatype Nuitees = Nuitees(virementCheque: real, airbnb: real, abritel: real, gitesDeFrance: real)

  /** The guest-night breakdown of `s`: per group, the guest-nights of the
      bookings `group` puts in it. */
  function Breakdown(group: Entry -> Option<Group>, s: seq<Entry>): Nuitees
  {
    Nuitees(KeySum(group, GuestNights, s, Some(VirementCheque)), KeySum(group, GuestNights, s, Some(Airbnb)),
            KeySum(group, GuestNights, s, Some(Abritel)), KeySum(group, GuestNights, s, Some(GitesDeFrance)))
  }

  datatype GiteStats = GiteStats(
    reservations: int,
    totalNights: real,
    totalCA: real,
    meanStay: real,
    meanPrice: real,
    payments: map<string, real>,
    nuiteesByPayment: Nuitees)

  /** `total / count` when count is not 0 (truthy), else 0: the mean. */
  function Mean(total: real, count: real): (m: real)
    ensures count != 0.0 ==> m * count == total
    ensures count == 0.0 ==> m == 0.0
  {
    if count != 0.0 then total / count else 0.0
  }

  /** computeGiteStats: the card of one property for the period. The
      revenue breakdown has one key per payment label that occurs, holding
      the revenue of its bookings, and adds up to the revenue; the
      guest-night breakdown holds each group's guest-nights. */
  method ComputeGiteStats(entries: seq<Entry>, year: int, month: int) returns (r: GiteStats)
    ensures var f := FilterDataByPeriod(entries, year, month);
      r.reservations == |f| && r.totalNights == Sum(Nights, f) && r.totalCA == Sum(Revenue, f)
    ensures r.meanStay == Mean(r.totalNights, r.reservations as real)
    ensures r.meanPrice == Mean(r.totalCA, r.totalNights)
    ensures var f := FilterDataByPeriod(entries, year, month);
      forall tag :: tag in r.payments <==> tag in KeysOf(Label, f)
    ensures var f := FilterDataByPeriod(entries, year, month);
      forall tag :: tag in r.payments ==> r.payments[tag] == KeySum(Label, Revenue, f, tag)
    ensures SumMap(r.payments) == r.totalCA
    ensures r.nuiteesByPayment == Breakdown(GroupOf, FilterDataByPeriod(entries, year, month))
  {
    var filtered := FilterDataByPeriod(entries, year, month);
    var reservations := |filtered|;
    var totalNights := Sum(Nights, filtered);
    var totalCA := Sum(Revenue, filtered);
    var meanStay := Mean(totalNights, reservations as real);
    var meanPrice := Mean(totalCA, totalNights);

    var payments, nuitees := TallyByPayment(filtered);
    TallyByKey(Label, Revenue, filtered);
    TallyTotal(Label, Revenue, filtered);
    r := GiteStats(reservations, totalNights, totalCA, meanStay, meanPrice, payments, nuitees);
  }

  /** The `forEach` of computeGiteStats: the revenue of each payment label
      and the guest-nights of each payment group. */
  method TallyByPayment(filtered: seq<Entry>) returns (payments: map<string, real>, nuitees: Nuitees)
    ensures payments == Tally(Label, Revenue, filtered)
    ensures nuitees == Breakdown(GroupOf, filtered)
  {
    payments := map[];
    nuitees := Nuitees(0.0, 0.0, 0.0, 0.0);
    var i := 0;
    KeySumEmpty(GroupOf, GuestNights, filtered[..0], Some(VirementCheque));
    KeySumEmpty(GroupOf, GuestNights, filtered[..0], Some(Airbnb));
    KeySumEmpty(GroupOf, GuestNights, filtered[..0], Some(Abritel));
    KeySumEmpty(GroupOf, GuestNights, filtered[..0], Some(GitesDeFrance));
    while i < |filtered|
      invariant 0 <= i <= |filtered|
      invariant payments == Tally(Label, Revenue, filtered[..i])
      invariant nuitees == Breakdown(GroupOf, filtered[..i])
    {
      var e := filtered[i];
      var paymentType := Label(e);
      TallyStep(filtered, i);
      payments := AddPayment(payments, paymentType, Revenue(e));
      nuitees := Credit(nuitees, Classify(paymentType), GuestNights(e));
      i := i + 1;
    }
    assert filtered[..i] == filtered;
  }

  /** One iteration of the tally: the next booking's revenue goes to its
      label and its guest-nights to the group of that label. */
  lemma TallyStep(filtered: seq<Entry>, i: int)
    requires 0 <= i < |filtered|
    ensures var e := filtered[i];
      Tally(Label, Revenue, filtered[..i + 1]) == Bump(Tally(Label, Revenue, filtered[..i]), Label(e), Revenue(e))
    ensures var e := filtered[i];
      Breakdown(GroupOf, filtered[..i + 1]) == Credit(Breakdown(GroupOf, filtered[..i]), Classify(Label(e)), GuestNights(e))
  {
    TallyPrefix(Label, Revenue, filtered, i);
    BreakdownPrefix(GroupOf, filtered, i);
  }

  /** `if (!payments[k]) payments[k] = 0; payments[k] += amount;`: the amount
      is added to the value of `k`, a missing key counting as 0. */
  method AddPayment(payments: map<string, real>, k: string, amount: real) returns (m: map<string, real>)
    ensures m == Bump(payments, k, amount)
  {
    m := payments;
    if k !in m || m[k] == 0.0 {
      m := m[k := 0.0];
    }
    m := m[k := m[k] + amount];
  }

  /** The guest-nights `n` added to the count of group `g`, if any. */
  function Credit(b: Nuitees, g: Option<Group>, n: real): Nuitees
  {
    match g
    case Some(Airbnb) => b.(airbnb := b.airbnb + n)
    case Some(Abritel) => b.(abritel := b.abritel + n)
    case Some(GitesDeFrance) => b.(gitesDeFrance := b.gitesDeFrance + n)
    case Some(VirementCheque) => b.(virementCheque := b.virementCheque + n)
    case None => b
  }

  /** One more booking credits its guest-nights to its group, if any. */
  lemma BreakdownPrefix(group: Entry -> Option<Group>, s: seq<Entry>, i: int)
    requires 0 <= i < |s|
    ensures Breakdown(group, s[..i + 1]) == Credit(Breakdown(group, s[..i]), group(s[i]), GuestNights(s[i]))
  {
    assert s[..i + 1][..i] == s[..i];
  }

  /** The four groups and the bookings in none partition the guest-nights. */
  lemma {:induction false} GroupsPartition(group: Entry -> Option<Group>, s: seq<Entry>)
    ensures var b := Breakdown(group, s);
      b.virementCheque + b.airbnb + b.abritel + b.gitesDeFrance + KeySum(group, GuestNights, s, None)
      == Sum(GuestNights, s)
  {
    if s != [] {
      GroupsPartition(group, s[..|s| - 1]);
      match group(s[|s| - 1]) {
        case None =>
        case Some(VirementCheque) =>
        case Some(Airbnb) =>
        case Some(Abritel) =>
        case Some(GitesDeFrance) =>
      }
    }
  }
}

=== FILE: urssaf.dfy ===
/** The URSSAF declarations: the takings of a period paid by one of the
    declared payment methods, summed over Sébastien's three properties and
    over Soazig's one. */
module Urssaf {
  import opened Seqs
  import opened JsStrings
  import opened Records
  import opened Periods
  import opened Stats

  /** URSSAF_PAYMENTS: the payment tags whose takings are declared. The test
      is exact: no trimming and no case folding. */
  const UrssafPayments: seq<string> := ["Abritel", "Airbnb", "Ch\U{E8}que", "Virement", "Gites de France"]

  /** The properties of each declarant. */
  const NamesSeb: seq<string> := ["Phonsine", "Gree", "Edmond"]
  const NameSoazig: string := "Libert\U{E9}"

  predicate IsUrssafPayment(e: Entry)
  {
    e.paiement in UrssafPayments
  }

  /** `data[name] || []`: a property missing from the data has no bookings. */
  function EntriesOf(data: Dataset, name: string): seq<Entry>
  {
    if name in data then data[name] else []
  }

  /** The declared takings of one property in the period. */
  function Declared(data: Dataset, name: string, year: int, month: int): (r: real)
    ensures name !in data ==> r == 0.0
  {
    MatchSum(IsUrssafPayment, Revenue, EntriesOf(data, name), year, month)
  }

  /** The declared takings of several properties. */
  function DeclaredAll(data: Dataset, names: seq<string>, year: int, month: int): (r: real)
    ensures (forall i :: 0 <= i < |names| ==> names[i] !in data) ==> r == 0.0
  {
    if names == [] then 0.0
    else DeclaredAll(data, names[..|names| - 1], year, month) + Declared(data, names[|names| - 1], year, month)
  }

  /** computeUrssaf: one loop over Sébastien's properties, one over
      Soazig's bookings. */
  method ComputeUrssaf(data: Dataset, selectedYear: int, selectedMonth: int) returns (urssafSeb: real, urssafSoazig: real)
    ensures urssafSeb == DeclaredAll(data, NamesSeb, selectedYear, selectedMonth)
    ensures urssafSoazig == Declared(data, NameSoazig, selectedYear, selectedMonth)
  {
    urssafSeb := 0.0;
    var i := 0;
    while i < |NamesSeb|
      invariant 0 <= i <= |NamesSeb|
      invariant urssafSeb == DeclaredAll(data, NamesSeb[..i], selectedYear, selectedMonth)
    {
      urssafSeb := AddTakings(IsUrssafPayment, EntriesOf(data, NamesSeb[i]), selectedYear, selectedMonth, urssafSeb);
      DeclaredAllPrefix(data, NamesSeb, i, selectedYear, selectedMonth);
      i := i + 1;
    }
    assert NamesSeb[..i] == NamesSeb;
    urssafSoazig := AddTakings(IsUrssafPayment, EntriesOf(data, NameSoazig), selectedYear, selectedMonth, 0.0);
  }

  /** The inner forEach: adds to `total` the revenue of every booking of `es`
      that matches the period and whose payment passes `keep`. */
  method AddTakings(keep: Entry -> bool, es: seq<Entry>, year: int, month: int, total: real) returns (r: real)
    ensures r == total + MatchSum(keep, Revenue, es, year, month)
  {
    r := total;
    var j := 0;
    while j < |es|
      invariant 0 <= j <= |es|
      invariant r == total + MatchSum(keep, Revenue, es[..j], year, month)
    {
      var e := es[j];
      if EntryMatch(e, year, month) && keep(e) {
        r := r + e.revenus;
      }
      MatchSumPrefix(keep, Revenue, es, j, year, month);
      j := j + 1;
    }
    assert es[..j] == es;
  }

  lemma DeclaredAllPrefix(data: Dataset, names: seq<string>, i: int, year: int, month: int)
    requires 0 <= i < |names|
    ensures DeclaredAll(data, names[..i + 1], year, month) ==
      DeclaredAll(data, names[..i], year, month) + Declared(data, names[i], year, month)
  {
    assert names[..i + 1][..i] == names[..i];
  }

  /** No declared payment is a home exchange: the five tags have no blank
      at either end and none has the length of "homeexchange". */
  lemma UrssafNotHomeExchange(e: Entry)
    requires IsUrssafPayment(e)
    ensures !IsHomeExchange(e)
  {
    var k :| 0 <= k < |UrssafPayments| && UrssafPayments[k] == e.paiement;
    UrssafTagShape(k);
    ShapeNotHomeExchange(e);
  }

  lemma UrssafTagShape(k: int)
    requires 0 <= k < |UrssafPayments|
    ensures var p := UrssafPayments[k]; |p| != 12 && !IsJsSpace(p[0]) && !IsJsSpace(p[|p| - 1])
  {
  }

  /** A payment with no blank at either end is a home exchange only if it
      has the twelve letters of "homeexchange". */
  lemma ShapeNotHomeExchange(e: Entry)
    requires var p := e.paiement; |p| != 12 && p != [] && !IsJsSpace(p[0]) && !IsJsSpace(p[|p| - 1])
    ensures !IsHomeExchange(e)
  {
    TrimUnchanged(e.paiement);
  }

  /** With no negative revenue, a property's declaration is at most the
      turnover (totalCA) of its card for the same period. */
  lemma DeclaredWithinTurnover(data: Dataset, name: string, year: int, month: int)
    requires var es := EntriesOf(data, name); forall i :: 0 <= i < |es| ==> es[i].revenus >= 0.0
    ensures Declared(data, name, year, month) <= Sum(Revenue, FilterDataByPeriod(EntriesOf(data, name), year, month))
  {
    var es := EntriesOf(data, name);
    forall e | IsUrssafPayment(e) ensures NotHomeExchange(e) {
      UrssafNotHomeExchange(e);
    }
    MatchSumWithin(IsUrssafPayment, NotHomeExchange, Revenue, es, year, month);
    SumFiltered(Revenue, es, year, month);
  }

  /** The twelve monthly declarations of a property add up to its yearly
      one, when every booking has a valid start date. */
  lemma DeclaredMonthsMakeYear(data: Dataset, name: string, year: int)
    requires AllDated(EntriesOf(data, name))
    ensures MonthsSum(IsUrssafPayment, Revenue, EntriesOf(data, name), year, 13) == Declared(data, name, year, 0)
  {
    MonthsMakeYearSum(IsUrssafPayment, Revenue, EntriesOf(data, name), year);
  }
}
